=== FILE: README.md ===
# Club portal core, modelled in Dafny

This project models the decision logic of a small club portal, a React front end over a Supabase (PostgREST) back end. The model covers:

- **Profile provisioning and routing.** On sign-in, the login page makes sure the user has a profile. If the lookup answers "no rows", it creates one with role `user`. It then sends the user to the dashboard their role selects. The app's route table maps each path to a page.
- **The member's view.** The user dashboard takes the user's memberships as a list of club ids. It fetches the events and announcements of those clubs and merges them into one feed, newest first. The profile page flattens each membership with its club's columns and derives the avatar initial.
- **The club admin's dashboard.** App.js imports `./pages/AdminDashboard` without an extension, which the bundler resolves to `AdminDashboard.js` (`.js` is tried before `.jsx`). Its uncommented component is the plain create-and-list page. The tabbed `AdminDashboard.jsx` is a second version of the page that no file imports. It is modelled for its edit, delete and member handlers. The dashboard resolves the single club the user administers and fetches that club's lists. It creates, updates and deletes events and announcements with the club and author forced into each new row. It adds a member after three checks, removes a member, and builds the members CSV export.

The remote store is an immutable value with five tables: profiles, clubs, memberships, events and announcements. Each request that can fail takes an explicit fault input. Each handler is a pure function from the page state, the store and the faults to an outcome, the new state and the new store. `.single()` answers with data when exactly one row matches. Otherwise it answers with PostgREST's code `PGRST116`, or with the injected fault.

Modules, one file each:

- `Seqs` (seqs.dfy): filtering, a stable sort by an integer key, and a two-way merge.
- `Remote` (remote.dfy): rows, the store, `.single()` and insert.
- `Routes` (routes.dfy): the route table.
- `Login` (login.dfy).
- `UserDashboard` (user_dashboard.dfy).
- `UserProfile` (user_profile.dfy).
- `Csv` (csv.dfy): comma/line-feed text, and its quoted form.
- `AdminDashboard` (admin_dashboard.dfy).

## Model

| member | source | states |
|---|---|---|
| Remote.Single | src/pages/Login.js:25-36 | `.single()` yields data exactly when there is no fault and exactly one row matches, and the data is that row. Zero or several rows with no fault give the "no rows" code `PGRST116`. An injected fault comes back as the error unchanged, with no data, so a transport error is never mistaken for "no rows". No data always comes with an error. |
| Remote.InsertRow | src/pages/Login.js:37-53 | An insert succeeds exactly when there is no fault and the key is new. It then appends exactly that row and keeps the table's keys unique. |
| Remote.ProfileLookupByKey | src/pages/Login.js:25-29 | When ids are unique and the id is present, the `eq("id", …)` lookup returns exactly the one stored row. When the id is absent it returns nothing. |
| Remote.Embedded | src/components/UserProfile.js:35-41 | An embedded relation (`clubs (…)`, `profiles (…)`) is a row of the related table that meets the join condition. None means no row of the table meets it. |
| Routes.Resolve | src/App.js:12-22 | A path resolves to a page exactly when one of `/`, `/login`, `/admin-dashboard`, `/user-dashboard` matches it. A route matches when the path starts with `/` and equals the route's path up to ASCII case and trailing slashes. `/` and `/login` render the login page, `/admin-dashboard` the admin dashboard, `/user-dashboard` the user dashboard. |
| Routes.Lookup | src/App.js:12-22 | A route is found exactly when some entry matches the path, and the page returned is the page of a matching entry. |
| Routes.RouteTable | src/App.js:14-21 | Each of the four declared paths, written as declared, renders the page declared for it. |
| Routes.ResolveIgnoresCaseAndTrailingSlash | src/App.js:12-22 | Adding a trailing slash to a path, or lower-casing it, does not change the page it renders (`/Login/` renders what `/login` renders). |
| Login.EnsureProfile | src/pages/Login.js:23-61 | Only the profiles table can change, and only by the one new `user` profile. That happens only when the user had no profile. An existing profile comes back as stored with no insert. A "no rows" answer inserts exactly `{id, email, role: "user"}` and returns it. Any other lookup error returns nothing and changes nothing. A failed insert changes nothing. Unique profile ids stay unique. |
| Login.EnsureProfileIdempotent | src/pages/Login.js:36-56 | A second provisioning run for the same user inserts nothing and returns the same profile. The store then holds exactly one profile for the user. |
| Login.RedirectUser | src/pages/Login.js:64-74 | Navigation happens exactly when there is a profile. The target is `/admin-dashboard` exactly when the role is `admin`, otherwise `/user-dashboard`. |
| Login.RedirectLandsOnDashboard | src/App.js:17-18 | Both redirect targets are registered routes. The page reached is the admin dashboard for `admin` and the user dashboard for every other role. |
| Login.RedirectDependsOnlyOnRole | src/pages/Login.js:69-73 | Two profiles with the same role are routed identically. |
| Login.SignInFlow | src/pages/Login.js:64-89 | The store after sign-in is the one provisioning leaves. A navigation happens exactly when provisioning returned a profile. It goes to `/admin-dashboard` exactly when that profile's role is `admin` and to `/user-dashboard` otherwise, both registered routes and never the login page. |
| Login.OnAuthStateChange | src/pages/Login.js:99-107 | Only a `SIGNED_IN` event carrying a session provisions and redirects. Every other notification changes nothing and navigates nowhere. |
| Login.InitAuth | src/pages/Login.js:78-90 | Without a session nothing happens. With one, the user is provisioned and redirected. |
| Login.FirstSignInLandsOnUserDashboard | src/pages/Login.js:36-53 | A first sign-in adds exactly the `user` profile and lands on the user dashboard. |
| Login.AdminSignInLandsOnAdminDashboard | src/pages/Login.js:69-70 | A signed-in admin with a stored profile reaches `/admin-dashboard`, and the store is unchanged. |
| UserDashboard.Tag | src/pages/UserDashboard.js:714-715 | Tagging keeps the id, the timestamp and every other field, and adds `type` naming the source list. |
| UserDashboard.Feed | src/pages/UserDashboard.js:713-716 | The feed has one item per event and per announcement. It is a permutation of the tagged rows and is ordered by `created_at`, newest first. |
| UserDashboard.FeedItemsAreTaggedRows | src/pages/UserDashboard.js:714-715 | Every feed item is a fetched row, unchanged except for a `type` that names its list. |
| UserDashboard.FeedIsMerge | src/pages/UserDashboard.js:714-716 | When both lists arrive newest first, the stable sort equals their two-way merge. An event precedes an announcement with the same timestamp. |
| UserDashboard.ClubIds | src/pages/UserDashboard.js:335 | The club ids are exactly the memberships' `club_id`s, in order. |
| UserDashboard.FetchScoped | src/pages/UserDashboard.js:362-378 | The scoped fetch is a permutation of the rows whose `club_id` is among the ids, all taken from the table, newest first. |
| UserDashboard.FetchUserData | src/pages/UserDashboard.js:317-360 | With no user the previous data is kept and nothing is fetched. Otherwise loading ends. No memberships (or a failed membership request) changes nothing else. Otherwise the clubs are exactly the stored clubs whose id is among the user's memberships' club ids (empty when that request fails), and the events and announcements are the scoped fetches, each empty when its own request fails. Every event, announcement and club listed belongs to one of the user's clubs. |
| UserDashboard.NoMembershipsEmptyFeed | src/pages/UserDashboard.js:334-352 | On the first load, a user with no memberships sees no clubs and an empty feed, and loading has ended. |
| UserDashboard.AnnouncementFailureIsolated | src/pages/UserDashboard.js:346-349 | A failed announcements request leaves the events list as it would otherwise be. |
| UserDashboard.NoUserRedirect | src/pages/UserDashboard.js:702-706 | The dashboard navigates exactly when auth loading is over with no user, and the target resolves to the login page. |
| UserProfile.ClubColumns | src/components/UserProfile.js:35-41 | The embedded club contributes exactly the selected columns `id`, `name`, `description`, `logo_url` and `admin_user_id`, each holding the club's value (a missing optional value as `null`). A missing club contributes nothing. |
| UserProfile.ClubOf | src/components/UserProfile.js:35-41 | The embedded club is a stored club with the membership's `club_id`. None means no club has that id. |
| UserProfile.Flatten | src/components/UserProfile.js:55-60 | A flattened entry has `membership_id`, `role` and `joined_at` from the membership plus every selected club column, and no other key. |
| UserProfile.FlattenAll | src/components/UserProfile.js:55-60 | There is one flattened entry per membership, in the same order. |
| UserProfile.Load | src/components/UserProfile.js:13-72 | With no session or a session error, the page goes to the login page and requests nothing. Otherwise it records the user and ends loading. A failed membership request sets the error message and leaves the clubs empty. Otherwise the clubs are exactly the user's memberships, flattened in order. |
| UserProfile.GetInitial | src/components/UserProfile.js:93-95 | The initial is one character: `U` for a missing or empty email, otherwise the email's first character upper-cased. |
| UserProfile.UpperAscii | src/components/UserProfile.js:94 | Lower-case ASCII letters map to their capitals, and every other character is kept. |
| UserProfile.InitialIsUpperCase | src/components/UserProfile.js:93-95 | The initial is never a lower-case letter, and it matches the email's first character up to case. |
| Csv.DecodeEncode | src/pages/AdminDashboard.jsx:338-345 | Text joined with `,` and line feeds reads back as the original records when no field holds a separator. |
| Csv.DecodeEncodeLines | src/pages/AdminDashboard.jsx:345 | With no line feed in any field, the text reads back as one line per record, each line cut at every comma, including commas inside fields. |
| Csv.CommaInFieldSplitsIt | src/pages/AdminDashboard.jsx:338-345 | Nothing is quoted, so any field `a,b` (with no other separator) reads back as the two fields `a` and `b`. |
| Csv.DecodeEncodeQuoted | src/pages/AdminDashboard.jsx:338-345 | With every field quoted, the text reads back as the original records whenever no field holds a quote mark or a line feed, whatever commas the fields hold. |
| AdminDashboard.BlankForm | src/pages/AdminDashboard.jsx:19-36 | A blank form holds exactly its page's fields, all empty. The plain page has a `link` event field and a `title` announcement field. |
| AdminDashboard.ResolveClub | src/pages/AdminDashboard.jsx:42-64 | The club id is set exactly when there is a user, the lookup does not fail, and the user administers exactly one club. It is then that club's id, and nothing else of the page changes. The tabbed page also keeps the club row. |
| AdminDashboard.PagesAgreeOnClub | src/pages/AdminDashboard.js:1089-1113 | Both pages settle on the same club id. The plain page keeps no club row. |
| AdminDashboard.NoClubIsNotice | src/pages/AdminDashboard.js:1214-1215 | An admin of no club ends in the "no club" state, not in an error. |
| AdminDashboard.OrderByDate | src/pages/AdminDashboard.js:1122-1131 | The events fetch is a permutation ordered by date ascending, with the undated rows last. |
| AdminDashboard.FetchEvents | src/pages/AdminDashboard.jsx:79-88 | A failed fetch keeps the previous list and state. Otherwise only the events list changes. It becomes a permutation of the club's events, in date order with undated rows last. |
| AdminDashboard.FetchAnnouncements | src/pages/AdminDashboard.js:1133-1142 | A failed fetch keeps the previous list and state. Otherwise only the announcements list changes. It becomes a permutation of the club's announcements, newest first. |
| AdminDashboard.Refetch | src/pages/AdminDashboard.jsx:79-99 | The re-fetch after a write changes only the written board's list. A failed fetch keeps it. Otherwise it lists exactly the club's rows of that board, events by date with undated rows last, announcements newest first. |
| AdminDashboard.ProfileOf | src/pages/AdminDashboard.jsx:101-108 | A member's embedded profile is a stored profile with the membership's `user_id`. None means there is no such profile. |
| AdminDashboard.FetchMembers | src/pages/AdminDashboard.jsx:101-112 | A failed fetch keeps the list. Otherwise the list is one entry per membership of the club, in order, each with its profile. |
| AdminDashboard.LoadClubData | src/pages/AdminDashboard.jsx:67-77 | Nothing is fetched until the club id is truthy. The plain page then fetches events and announcements (src/pages/AdminDashboard.js:1115-1120). The tabbed page fetches the list of the open tab only: events, announcements or members. Only the members tab touches the members list. |
| AdminDashboard.EventsListedByDate | src/pages/AdminDashboard.jsx:79-88 | A club with two events on different days, stored in the opposite order, lists them earliest first on the events tab. |
| AdminDashboard.NewPost | src/pages/AdminDashboard.jsx:122-128 | A new row holds every form field plus `created_by` and `club_id`, which win over same-named form fields. |
| AdminDashboard.CreatePost | src/pages/AdminDashboard.jsx:115-148 | Without a user or a club the request is refused and nothing changes. It succeeds exactly when both are present, the insert does not fail and the key is new. Success appends the one new row to its table, re-lists that board from the written store (or keeps the list when the re-fetch fails), resets the form to blank and changes nothing else of the page. Failure changes neither store nor state. A failed or key-colliding insert is reported as a failed write (the code's error alert), distinct from the refusal. |
| AdminDashboard.CreatedRowIsScoped | src/pages/AdminDashboard.jsx:191-218 | A successful create adds one row at the end of its own table, carrying the club and the author. Every other table is unchanged. |
| AdminDashboard.CreatedPostIsListed | src/pages/AdminDashboard.jsx:115-136 | After a create and a re-fetch that do not fail, the new row is in the page's list of its board. |
| AdminDashboard.PlainPageFormReset | src/pages/AdminDashboard.js:1159-1177 | After a successful create on the plain page, every form field, `link` and `title` included, is empty. |
| AdminDashboard.Patched | src/pages/AdminDashboard.jsx:155-158 | An update rewrites only the row whose id the edited object carries. That row gets the object's fields, keeps every column the object does not name, and keeps its key and creation time. Other rows are unchanged. |
| AdminDashboard.UpdatePost | src/pages/AdminDashboard.jsx:151-168 | With nothing being edited nothing happens. It succeeds exactly when something is being edited and the write does not fail. Success patches each row of that table only, re-lists the board from the written store (or keeps the list when the re-fetch fails), clears editing and changes nothing else of the page. Failure changes nothing. A failed write while editing is reported as a failed write, distinct from having nothing to edit. |
| AdminDashboard.UpdateTouchesOnlyItsRow | src/pages/AdminDashboard.jsx:221-238 | A row whose id the edited object does not carry is unchanged by the update. |
| AdminDashboard.DeletePost | src/pages/AdminDashboard.jsx:171-188 | A declined confirmation does nothing. It succeeds exactly when confirmed and the write does not fail. The table then holds exactly its rows with other ids, each as often as before: together with the deleted rows it is the old table, counted with multiplicity. No other table changes, and the board is re-listed from the written store (or kept when the re-fetch fails) with nothing else of the page changed. Failure changes nothing. A confirmed delete whose write fails is reported as a failed write, distinct from the silent decline. |
| AdminDashboard.DeleteLeavesOtherEvent | src/pages/AdminDashboard.jsx:171-188 | Deleting one of two events leaves the other, when it belongs to the club, as the only event listed. |
| AdminDashboard.AddMember | src/pages/AdminDashboard.jsx:261-315 | An empty email is refused. A failed lookup, or an email without exactly one profile, is refused as "no such user". The "already a member" refusal happens exactly when the check finds one membership of that user in the club. Success happens exactly when none of these refusals applies and the insert neither fails nor reuses a key. It appends exactly `{club_id, user_id, joined_at}` to the memberships, with no role, clears the email and re-reads the roster from the written store (or keeps it when the re-fetch fails), changing nothing else. Every refusal or failure changes nothing. When every check passes but the insert fails or reuses a key, the outcome is a failed write rather than a refusal. |
| AdminDashboard.AddedMemberIsListed | src/pages/AdminDashboard.jsx:296-312 | After an add and a re-fetch that do not fail, the last roster entry is the new membership of the profile the email named. |
| AdminDashboard.DuplicateJoinRejected | src/pages/AdminDashboard.jsx:282-293 | A user who is already a member is refused, and their single membership stays single. |
| AdminDashboard.FailedCheckAdmitsDuplicate | src/pages/AdminDashboard.jsx:282-304 | Only a found row refuses, so a failed membership check lets the insert through. In the model's store, which enforces no (club, user) uniqueness, the member then has two rows. |
| AdminDashboard.RemoveMember | src/pages/AdminDashboard.jsx:317-335 | Removal happens exactly when confirmed and the write does not fail. It then deletes exactly the memberships matching both the club and the user: the rest, together with the deleted rows, is the old table counted with multiplicity. No other table changes, and the roster is re-read from the written store (or kept when the re-fetch fails) with nothing else of the page changed. Otherwise nothing changes. A declined confirmation returns silently with nothing changed; a confirmed removal whose write fails is reported as a failed write. |
| AdminDashboard.RemovedMemberIsNotListed | src/pages/AdminDashboard.jsx:317-335 | After a removal and a re-fetch that do not fail, no roster entry belongs to the removed user. |
| AdminDashboard.OrNA | src/pages/AdminDashboard.jsx:340-341 | A printed name or email is never empty. A present non-empty value prints as itself, anything else as `N/A`. |
| AdminDashboard.CsvRecords | src/pages/AdminDashboard.jsx:338-344 | The export holds the header `Name,Email,Joined At` (three fields) and then one three-field record per member, in roster order. |
| AdminDashboard.MembersCsvReadsBack | src/pages/AdminDashboard.jsx:337-345 | When no name or email holds a comma or a line feed and no date a line feed, the export reads back by lines and commas as the header and, per member in order, the name, the email and the date cut at each of its commas. A member's record comes back whole exactly when its date holds no comma. |
| AdminDashboard.JoinedAtCommasShiftColumns | src/pages/AdminDashboard.jsx:343-345 | A join date formatted with two commas makes the member's line read back as five fields under a three-field header. The last three are the pieces of the date. |
| AdminDashboard.MembersCsvQuotedReadsBack | src/pages/AdminDashboard.jsx:338-345 | With every value quoted, the export reads back as exactly the header and each member's three values, commas included, whenever no value holds a quote mark or a line feed. |

## Left out

- Supabase I/O (queries, `getSession`/`getUser`, `signInWithOtp`, `signOut`, the listener's subscription and unsubscribe) is replaced by the store value and explicit fault inputs. The keys and timestamps the store assigns are inputs too.
- React state, effects and rendering are left out, as are `alert`, `console`, `window.confirm` (a `confirmed` input), tabs as UI, modals and CSS. The `loading` flags of the login page and the tabbed admin page are also left out.
- The commented-out drafts at the top of `src/pages/AdminDashboard.js` and `src/pages/UserDashboard.js` are dead code and are not modelled.
- Date parsing and formatting (`new Date`, `toLocaleDateString`, date-fns `format`) are left out. `created_at` is an integer, an event `date` a day number, and `joined_at` and the CSV date column opaque strings (`formatJoined` is a parameter).
- The CSV Blob, object URL and download link, the magic-link form, Navbar.js and the redirect URLs are not part of this model.
- `toUpperCase` is modelled on ASCII letters only.
- Login.EnsureProfile: the page selects only `role` from the profile. The model returns the whole row, which agrees with it on `role`.
- AdminDashboard.NewPost, AdminDashboard.Patched: every form value is a string, and the model writes it into the row as that string. The store's parsing of the `date` string into a date is not modelled, and neither is its refusal of an empty or malformed date (that refusal would reach the handlers as a write fault). So a row written through the form keeps a string `date`. AdminDashboard.OrderByDate then lists it among the undated rows, where the store would order it by the parsed day. The date ordering is stated for rows whose `date` is a day number.
- AdminDashboard.Patched: the edited object is written as a whole, but the model does not rewrite `id` and `created_at`. These are the values the object was copied from, so writing them changes nothing.
- AdminDashboard.UpdatePost, AdminDashboard.DeletePost, AdminDashboard.AddMember, AdminDashboard.RemoveMember require a truthy club id and the tabbed page. Only the tabbed page has these handlers, and it renders the controls that call them only behind its "no club" gate (src/pages/AdminDashboard.jsx:417).
- AdminDashboard.AddMember: the client sends no `role` for a new membership. The model stores `role: None` in its place, standing for whatever column default the store applies.
- Routes.Resolve: case folding is ASCII only. Every declared path is ASCII, so this is exact for the routes of this app.
- The user dashboard's embedded `clubs(name)` column on events and announcements is not modelled.
- A failed club lookup and "administers no club" both leave the club id unset. The code does not tell them apart, and the model follows the code.
- The model's store enforces no uniqueness of (club, user) on memberships; its only insert constraint is the primary key. If the real table carries such a constraint, the second insert in FailedCheckAdmitsDuplicate would arrive as an `insertFault` and the handler would report `Failed`. FailedCheckAdmitsDuplicate shows that the client code itself does not prevent the duplicate when the check fails.
- AdminDashboard.MembersCsvReadsBack: a value holding a line feed is not covered. A line feed in a value would split the member's line, which the code does not prevent either.
- Concurrent provisioning (two sign-ins racing to insert) is not modelled. The code does not handle it.

## Findings

| source | as written | input that shows it | evidently intended | confidence | as-written member | corrected member |
|---|---|---|---|---|---|---|
| src/pages/AdminDashboard.jsx:338-345 | The join date is written with the date-fns pattern `PPpp`, and the values are joined with `,` without quoting. | A member who joined on 10 January 2025 at 15:45: `PPpp` gives `Jan 10, 2025, 3:45:00 PM`, so the line reads back as five fields under the three-field header `Name,Email,Joined At`. | Each member's line reads back as three fields lining up with the header (quoting each value, as in section 2 of RFC 4180). | high; not executed | AdminDashboard.JoinedAtCommasShiftColumns | AdminDashboard.MembersCsvQuotedReadsBack |

=== FILE: admin_dashboard.dfy ===
/** The club admin's dashboard. The route table reaches the plain
    create-and-list page, the uncommented component of
    src/pages/AdminDashboard.js (the extension-less import resolves `.js`
    before `.jsx`). The tabbed page of src/pages/AdminDashboard.jsx is a
    second version of the page, which no file imports; it is modelled for
    its edit, delete and member handlers. The two share the club lookup,
    the scoped fetches and the create handlers, and differ in the blank
    forms they reset to and in what they keep of the club. */
module AdminDashboard {
  import opened Remote
  import opened Seqs
  import Csv

  datatype Variant = TabbedPage | PlainPage

  datatype Tab = EventsTab | AnnouncementsTab | MembersTab

  /** The two club-scoped post tables the admin writes to. */
  datatype Board = Events | Announcements

  /** A membership row with its embedded profile (`profiles (*)`). */
  datatype Member = Member(membership: Membership, profile: Option<Profile>)

  /** The page's state. The tabbed page alone uses `tab`, `clubInfo`,
      `members`, `memberEmail` and the editing slots. */
  datatype AdminState = AdminState(
    variant: Variant, tab: Tab, user: Option<AuthUser>, clubId: Option<Id>, clubInfo: Option<Club>,
    events: seq<Post>, announcements: seq<Post>, members: seq<Member>,
    eventForm: Obj, announcementForm: Obj, memberEmail: string,
    editingEvent: Option<Obj>, editingAnnouncement: Option<Obj>)

  /** The fields each page's create forms hold. */
  function FormKeys(v: Variant, b: Board): set<string>
  {
    match b
    case Events =>
      var keys := {"title", "description", "date", "time", "venue", "entry_fee", "prize_pool",
                   "image_url", "registration_link"};
      if v == PlainPage then keys + {"link"} else keys
    case Announcements =>
      if v == PlainPage then {"title", "message", "image_url", "link"} else {"message", "image_url", "link"}
  }

  /** A form with every field empty. */
  function BlankForm(v: Variant, b: Board): (r: Obj)
    ensures r.Keys == FormKeys(v, b)
    ensures forall k :: k in r ==> r[k] == Str("")
  {
    map k | k in FormKeys(v, b) :: Str("")
  }

  function Initial(v: Variant): AdminState
  {
    AdminState(v, EventsTab, None, None, None, [], [], [],
               BlankForm(v, Events), BlankForm(v, Announcements), "", None, None)
  }

  // ----- Per-board accessors -----

  function Rows(s: Store, b: Board): seq<Post>
  {
    match b
    case Events => s.events
    case Announcements => s.announcements
  }

  function WithRows(s: Store, b: Board, rows: seq<Post>): (r: Store)
    ensures Rows(r, b) == rows
  {
    match b
    case Events => s.(events := rows)
    case Announcements => s.(announcements := rows)
  }

  function Listed(st: AdminState, b: Board): seq<Post>
  {
    match b
    case Events => st.events
    case Announcements => st.announcements
  }

  function Form(st: AdminState, b: Board): Obj
  {
    match b
    case Events => st.eventForm
    case Announcements => st.announcementForm
  }

  function Editing(st: AdminState, b: Board): Option<Obj>
  {
    match b
    case Events => st.editingEvent
    case Announcements => st.editingAnnouncement
  }

  // ----- Club resolution -----

  /** The clubs whose `admin_user_id` is `uid`. */
  function Administered(s: Store, uid: Id): seq<Club>
  {
    Filter(s.clubs, (c: Club) => c.adminUserId == uid)
  }

  /** The mount effect: read the signed-in user and, if there is one, the
      single club they administer. Any error, "no rows" included, leaves
      the club unset. */
  function ResolveClub(v: Variant, user: Option<AuthUser>, s: Store, fault: Option<string>): (r: AdminState)
    ensures r == Initial(v).(user := user, clubId := r.clubId, clubInfo := r.clubInfo)
    ensures r.clubId.Some? <==> user.Some? && fault.None? && |Administered(s, user.value.id)| == 1
    ensures r.clubId.Some? ==>
              var club := Administered(s, user.value.id)[0];
              && club in s.clubs && club.adminUserId == user.value.id
              && r.clubId == Some(club.id)
              && r.clubInfo == (if v == TabbedPage then Some(club) else None)
    ensures r.clubId.None? ==> r.clubInfo.None?
  {
    var st := Initial(v).(user := user);
    match user
    case None => st
    case Some(u) =>
      var reply := Single(Administered(s, u.id), fault);
      if reply.error.Some? then st
      else if reply.data.Some? then
        var club := reply.data.value;
        st.(clubId := Some(club.id), clubInfo := if v == TabbedPage then Some(club) else None)
      else st
  }

  /** The club id is truthy: set, and not the empty string. Without it the
      page shows its "no club" notice instead of the dashboard, and the
      handlers that need the club are not on screen. */
  predicate HasClub(st: AdminState)
  {
    st.clubId.Some? && st.clubId.value != ""
  }

  /** Both pages settle on the same club id; only the tabbed page keeps the
      club row as well. */
  lemma PagesAgreeOnClub(user: Option<AuthUser>, s: Store, fault: Option<string>)
    ensures ResolveClub(TabbedPage, user, s, fault).clubId == ResolveClub(PlainPage, user, s, fault).clubId
    ensures ResolveClub(PlainPage, user, s, fault).clubInfo.None?
  {
  }

  /** An admin who administers no club sees the "no club" notice. */
  lemma NoClubIsNotice(v: Variant, user: AuthUser, s: Store)
    requires forall c :: c in s.clubs ==> c.adminUserId != user.id
    ensures !HasClub(ResolveClub(v, Some(user), s, None))
  {
    assert forall i :: 0 <= i < |s.clubs| ==> s.clubs[i] in s.clubs;
  }

  // ----- Scoped fetches -----

  /** Whether a row's `club_id` is `cid`. */
  predicate ClubIs(p: Post, cid: Id)
  {
    "club_id" in p.columns && p.columns["club_id"] == Str(cid)
  }

  function ClubRows(rows: seq<Post>, cid: Id): seq<Post>
  {
    Filter(rows, (p: Post) => ClubIs(p, cid))
  }

  /** Whether a row has a `date`, held as a day number. */
  predicate HasDate(p: Post)
  {
    "date" in p.columns && p.columns["date"].Num?
  }

  function DateKey(p: Post): int
  {
    if HasDate(p) then p.columns["date"].n else 0
  }

  /** Dated rows come in ascending day order. */
  predicate DatesAscending(r: seq<Post>)
  {
    forall i, j :: 0 <= i < j < |r| && HasDate(r[i]) && HasDate(r[j]) ==> DateKey(r[i]) <= DateKey(r[j])
  }

  /** Once a row without a date appears, no dated row follows. */
  predicate NullsLast(r: seq<Post>)
  {
    forall i, j :: 0 <= i < j < |r| && !HasDate(r[i]) ==> !HasDate(r[j])
  }

  lemma DatedThenUndated(a: seq<Post>, b: seq<Post>)
    requires forall i :: 0 <= i < |a| ==> HasDate(a[i])
    requires SortedBy(a, DateKey)
    requires forall i :: 0 <= i < |b| ==> !HasDate(b[i])
    ensures DatesAscending(a + b) && NullsLast(a + b)
  {
    var r := a + b;
    assert forall i :: 0 <= i < |a| ==> r[i] == a[i];
    assert forall j :: |a| <= j < |r| ==> r[j] == b[j - |a|];
  }

  /** `order("date", ascending)`: dated rows by day, then the rows without
      a date (the store puts nulls last in ascending order). */
  function OrderByDate(rows: seq<Post>): (r: seq<Post>)
    ensures multiset(r) == multiset(rows)
    ensures DatesAscending(r) && NullsLast(r)
  {
    var dated := Filter(rows, HasDate);
    var undated := Reject(rows, HasDate);
    var sorted := SortBy(dated, DateKey);
    FilterPartition(rows, HasDate);
    assert forall i :: 0 <= i < |sorted| ==> HasDate(sorted[i]) by {
      forall i | 0 <= i < |sorted| ensures HasDate(sorted[i]) {
        assert sorted[i] in multiset(dated);
      }
    }
    DatedThenUndated(sorted, undated);
    sorted + undated
  }

  /** `fetchEvents`: the club's events by date; an error keeps the list. */
  function FetchEvents(st: AdminState, s: Store, cid: Id, fault: bool): (r: AdminState)
    ensures fault ==> r == st
    ensures !fault ==> r == st.(events := r.events) && multiset(r.events) == multiset(ClubRows(s.events, cid))
    ensures !fault ==> DatesAscending(r.events) && NullsLast(r.events)
  {
    if fault then st else st.(events := OrderByDate(ClubRows(s.events, cid)))
  }

  /** `fetchAnnouncements`: the club's announcements, newest first; an error
      keeps the list. */
  function FetchAnnouncements(st: AdminState, s: Store, cid: Id, fault: bool): (r: AdminState)
    ensures fault ==> r == st
    ensures !fault ==> r == st.(announcements := r.announcements)
                       && multiset(r.announcements) == multiset(ClubRows(s.announcements, cid))
                       && SortedBy(r.announcements, NewestFirst)
  {
    if fault then st else st.(announcements := SortBy(ClubRows(s.announcements, cid), NewestFirst))
  }

  /** `rows` is what the fetch of board `b` reads from `s` for club `cid`:
      the club's rows, events by date and announcements newest first. */
  predicate IsListing(b: Board, rows: seq<Post>, s: Store, cid: Id)
  {
    && multiset(rows) == multiset(ClubRows(Rows(s, b), cid))
    && (b == Events ==> DatesAscending(rows) && NullsLast(rows))
    && (b == Announcements ==> SortedBy(rows, NewestFirst))
  }

  /** The re-fetch a handler runs after a successful write: only the
      board's list changes, and only when the fetch succeeds. */
  function Refetch(st: AdminState, s: Store, cid: Id, b: Board, fault: bool): (r: AdminState)
    ensures r == WithListed(st, b, Listed(r, b))
    ensures fault ==> r == st
    ensures !fault ==> IsListing(b, Listed(r, b), s, cid)
  {
    match b
    case Events => FetchEvents(st, s, cid, fault)
    case Announcements => FetchAnnouncements(st, s, cid, fault)
  }

  /** The profile a membership embeds through its `user_id`. */
  function ProfileOf(ps: seq<Profile>, uid: Id): (r: Option<Profile>)
    ensures r.Some? ==> r.value in ps && r.value.id == uid
    ensures r.None? ==> forall p :: p in ps ==> p.id != uid
  {
    var r := Embedded(ps, (p: Profile) => p.id == uid);
    assert r.None? ==> forall p :: p in ps ==> p.id != uid by {
      if r.None? {
        forall p | p in ps ensures p.id != uid {
          var k :| 0 <= k < |ps| && ps[k] == p;
        }
      }
    }
    r
  }

  /** The memberships of club `cid`, in table order. */
  function ClubMemberships(ms: seq<Membership>, cid: Id): seq<Membership>
  {
    Filter(ms, (m: Membership) => m.clubId == cid)
  }

  /** `members` is the roster `fetchMembers` reads from `s` for club `cid`:
      one entry per membership of the club, in order, with its profile. */
  predicate IsRoster(members: seq<Member>, s: Store, cid: Id)
  {
    var ms := ClubMemberships(s.memberships, cid);
    |members| == |ms| && forall i :: 0 <= i < |ms| ==> members[i] == Member(ms[i], ProfileOf(s.profiles, ms[i].userId))
  }

  /** `fetchMembers`: the club's memberships with their profiles; an error
      keeps the list. */
  function FetchMembers(st: AdminState, s: Store, cid: Id, fault: bool): (r: AdminState)
    ensures r == st.(members := r.members)
    ensures fault ==> r == st
    ensures !fault ==> IsRoster(r.members, s, cid)
  {
    if fault then st
    else
      var ms := ClubMemberships(s.memberships, cid);
      st.(members := seq(|ms|, i requires 0 <= i < |ms| => Member(ms[i], ProfileOf(s.profiles, ms[i].userId))))
  }

  /** Which scoped requests fail when the club data loads. */
  datatype LoadFaults = LoadFaults(events: bool, announcements: bool, members: bool)

  /** The data effect: nothing until a club is resolved; then the plain page
      loads events and announcements, and the tabbed page the list of the
      open tab. */
  function LoadClubData(st: AdminState, s: Store, f: LoadFaults): (r: AdminState)
    ensures !HasClub(st) ==> r == st
    ensures HasClub(st) && st.variant == PlainPage ==>
              r == FetchAnnouncements(FetchEvents(st, s, st.clubId.value, f.events), s, st.clubId.value, f.announcements)
    ensures HasClub(st) && st.variant == TabbedPage && st.tab == EventsTab ==>
              r == FetchEvents(st, s, st.clubId.value, f.events)
    ensures HasClub(st) && st.variant == TabbedPage && st.tab == AnnouncementsTab ==>
              r == FetchAnnouncements(st, s, st.clubId.value, f.announcements)
    ensures HasClub(st) && st.variant == TabbedPage && st.tab == MembersTab ==>
              r == FetchMembers(st, s, st.clubId.value, f.members)
    ensures r.members != st.members ==> st.variant == TabbedPage && st.tab == MembersTab
  {
    if !HasClub(st) then st
    else
      var cid := st.clubId.value;
      match st.variant
      case PlainPage => FetchAnnouncements(FetchEvents(st, s, cid, f.events), s, cid, f.announcements)
      case TabbedPage =>
        match st.tab
        case EventsTab => FetchEvents(st, s, cid, f.events)
        case AnnouncementsTab => FetchAnnouncements(st, s, cid, f.announcements)
        case MembersTab => FetchMembers(st, s, cid, f.members)
  }

  /** Two dated rows with different days have one date-ascending order. */
  lemma TwoByDate(xs: seq<Post>, e1: Post, e2: Post)
    requires multiset(xs) == multiset([e1, e2])
    requires DatesAscending(xs)
    requires HasDate(e1) && HasDate(e2) && DateKey(e1) < DateKey(e2)
    ensures xs == [e1, e2]
  {
    assert |xs| == 2 by {
      assert |multiset(xs)| == |xs|;
    }
    assert xs[0] in multiset([e1, e2]) && xs[1] in multiset([e1, e2]);
    assert xs == [xs[0], xs[1]];
  }

  lemma ClubRowsOfTwo(a: Post, b: Post, cid: Id)
    requires ClubIs(a, cid) && ClubIs(b, cid)
    ensures multiset(ClubRows([a, b], cid)) == multiset([b, a])
  {
    assert [b][1..] == [];
    assert ClubRows([b], cid) == [b] + ClubRows([], cid);
    assert [a, b][1..] == [b];
    assert ClubRows([a, b], cid) == [a] + ClubRows([b], cid);
  }

  /** The tabbed page lists a club's two events in date order. */
  lemma EventsListedByDate(st: AdminState, s: Store, e1: Post, e2: Post)
    requires HasClub(st) && st.variant == TabbedPage && st.tab == EventsTab
    requires s.events == [e2, e1]
    requires ClubIs(e1, st.clubId.value) && ClubIs(e2, st.clubId.value)
    requires HasDate(e1) && HasDate(e2) && DateKey(e1) < DateKey(e2)
    ensures LoadClubData(st, s, LoadFaults(false, false, false)).events == [e1, e2]
  {
    var cid := st.clubId.value;
    var fetched := FetchEvents(st, s, cid, false);
    assert LoadClubData(st, s, LoadFaults(false, false, false)) == fetched;
    ClubRowsOfTwo(e2, e1, cid);
    TwoByDate(fetched.events, e1, e2);
  }

  // ----- Mutations -----

  datatype Reason = NoUserOrClub | EmptyEmail | NoSuchUser | AlreadyMember

  /** How a handler ended: it did nothing (no item being edited, or the
      confirmation was declined), refused before writing, saw its write
      fail, or wrote. */
  datatype Outcome = Skipped | Rejected(reason: Reason) | Failed | Succeeded

  datatype Handled = Handled(outcome: Outcome, state: AdminState, store: Store)

  function WithListed(st: AdminState, b: Board, rows: seq<Post>): (r: AdminState)
    ensures Listed(r, b) == rows
  {
    match b
    case Events => st.(events := rows)
    case Announcements => st.(announcements := rows)
  }

  function WithForm(st: AdminState, b: Board, form: Obj): (r: AdminState)
    ensures Form(r, b) == form
  {
    match b
    case Events => st.(eventForm := form)
    case Announcements => st.(announcementForm := form)
  }

  function WithEditing(st: AdminState, b: Board, e: Option<Obj>): (r: AdminState)
    ensures Editing(r, b) == e
  {
    match b
    case Events => st.(editingEvent := e)
    case Announcements => st.(editingAnnouncement := e)
  }

  /** After a successful write to board `b`: the page's list of that board
      is re-read from the written store, or kept when the re-fetch fails. */
  predicate Relisted(b: Board, before: AdminState, after: AdminState, s: Store, refetchFault: bool)
    requires HasClub(before)
  {
    && (!refetchFault ==> IsListing(b, Listed(after, b), s, before.clubId.value))
    && (refetchFault ==> Listed(after, b) == Listed(before, b))
  }

  /** The row a create handler inserts: the form spread first, then
      `created_by` and `club_id`, which win over same-named form fields. */
  function NewPost(form: Obj, uid: Id, cid: Id, newId: Id, now: int): (r: Post)
    ensures r.id == newId && r.createdAt == now
    ensures r.columns.Keys == form.Keys + {"created_by", "club_id"}
    ensures r.columns["created_by"] == Str(uid) && r.columns["club_id"] == Str(cid)
    ensures forall k :: k in form && k !in {"created_by", "club_id"} ==> r.columns[k] == form[k]
  {
    Post(newId, now, form + map["created_by" := Str(uid), "club_id" := Str(cid)])
  }

  /** `handleCreateEvent` / `handleCreateAnnouncement`: refuse without a
      user or a club; otherwise insert the form as a row of the club; on
      success refetch the list and blank the form, on failure keep it.
      `newId` and `now` are the key and timestamp the store assigns. */
  function CreatePost(b: Board, st: AdminState, s: Store, newId: Id, now: int,
                      writeFault: Option<string>, refetchFault: bool): (r: Handled)
    ensures st.user.None? || !HasClub(st) ==> r == Handled(Rejected(NoUserOrClub), st, s)
    ensures r.outcome.Succeeded? <==>
              st.user.Some? && HasClub(st) && writeFault.None? && !HasKey(Rows(s, b), PostKey, newId)
    ensures st.user.Some? && HasClub(st) && (writeFault.Some? || HasKey(Rows(s, b), PostKey, newId))
            ==> r.outcome == Failed
    ensures r.outcome.Succeeded? ==>
              var row := NewPost(Form(st, b), st.user.value.id, st.clubId.value, newId, now);
              && r.store == WithRows(s, b, Rows(s, b) + [row])
              && r.state == WithForm(WithListed(st, b, Listed(r.state, b)), b, BlankForm(st.variant, b))
              && Relisted(b, st, r.state, r.store, refetchFault)
    ensures !r.outcome.Succeeded? ==> r.store == s && r.state == st
  {
    if st.user.None? || !HasClub(st) then Handled(Rejected(NoUserOrClub), st, s)
    else
      var cid := st.clubId.value;
      var row := NewPost(Form(st, b), st.user.value.id, cid, newId, now);
      match InsertRow(Rows(s, b), row, PostKey, writeFault)
      case None => Handled(Failed, st, s)
      case Some(rows) =>
        var s' := WithRows(s, b, rows);
        Handled(Succeeded, WithForm(Refetch(st, s', cid, b, refetchFault), b, BlankForm(st.variant, b)), s')
  }

  /** Creating a post adds exactly one row, to its own table, carrying the
      club and the author whatever the form held; every other table is as
      it was. */
  lemma CreatedRowIsScoped(b: Board, st: AdminState, s: Store, newId: Id, now: int,
                           writeFault: Option<string>, refetchFault: bool)
    requires CreatePost(b, st, s, newId, now, writeFault, refetchFault).outcome.Succeeded?
    ensures var r := CreatePost(b, st, s, newId, now, writeFault, refetchFault);
            && |Rows(r.store, b)| == |Rows(s, b)| + 1
            && Rows(r.store, b)[..|Rows(s, b)|] == Rows(s, b)
            && Rows(r.store, b)[|Rows(s, b)|].columns["club_id"] == Str(st.clubId.value)
            && Rows(r.store, b)[|Rows(s, b)|].columns["created_by"] == Str(st.user.value.id)
            && ClubIs(Rows(r.store, b)[|Rows(s, b)|], st.clubId.value)
            && r.store.profiles == s.profiles && r.store.clubs == s.clubs
            && r.store.memberships == s.memberships
            && (b == Events ==> r.store.announcements == s.announcements)
            && (b == Announcements ==> r.store.events == s.events)
  {
    var r := CreatePost(b, st, s, newId, now, writeFault, refetchFault);
    assert (Rows(s, b) + [NewPost(Form(st, b), st.user.value.id, st.clubId.value, newId, now)])[..|Rows(s, b)|]
           == Rows(s, b);
  }

  /** A created post shows up in the re-fetched list. */
  lemma CreatedPostIsListed(b: Board, st: AdminState, s: Store, newId: Id, now: int)
    requires CreatePost(b, st, s, newId, now, None, false).outcome.Succeeded?
    ensures var r := CreatePost(b, st, s, newId, now, None, false);
            NewPost(Form(st, b), st.user.value.id, st.clubId.value, newId, now) in Listed(r.state, b)
  {
    var r := CreatePost(b, st, s, newId, now, None, false);
    var row := NewPost(Form(st, b), st.user.value.id, st.clubId.value, newId, now);
    var cid := st.clubId.value;
    FilterAppend(Rows(s, b), row, (p: Post) => ClubIs(p, cid));
    assert ClubRows(Rows(r.store, b), cid) == ClubRows(Rows(s, b), cid) + [row];
    assert row in multiset(Listed(r.state, b));
  }

  /** On the plain page a successful create leaves every field of the
      form empty, `link` included. */
  lemma PlainPageFormReset(b: Board, st: AdminState, s: Store, newId: Id, now: int,
                           writeFault: Option<string>, refetchFault: bool)
    requires st.variant == PlainPage
    requires CreatePost(b, st, s, newId, now, writeFault, refetchFault).outcome.Succeeded?
    ensures var f := Form(CreatePost(b, st, s, newId, now, writeFault, refetchFault).state, b);
            && "link" in f && "title" in f && "image_url" in f
            && forall k :: k in f ==> f[k] == Str("")
  {
  }

  /** `{ ...row, ...patch }` for the rows whose key the patch's `id`
      names; the key and creation time are never rewritten. */
  function Patched(p: Post, patch: Obj): (r: Post)
    ensures r.id == p.id && r.createdAt == p.createdAt
    ensures !("id" in patch && patch["id"] == Str(p.id)) ==> r == p
    ensures "id" in patch && patch["id"] == Str(p.id) ==>
              && r.columns.Keys == p.columns.Keys + (patch.Keys - {"id", "created_at"})
              && (forall k :: k in patch && k !in {"id", "created_at"} ==> r.columns[k] == patch[k])
              && (forall k :: k in p.columns && k !in patch ==> r.columns[k] == p.columns[k])
  {
    if "id" in patch && patch["id"] == Str(p.id) then p.(columns := p.columns + (patch - {"id", "created_at"}))
    else p
  }

  /** `handleUpdateEvent` / `handleUpdateAnnouncement`: with nothing being
      edited, do nothing; otherwise write the edited object over the row
      with its id. On success stop editing and refetch; on failure keep
      both. Only the tabbed page edits, and only once its club is set. */
  function UpdatePost(b: Board, st: AdminState, s: Store, writeFault: Option<string>, refetchFault: bool): (r: Handled)
    requires HasClub(st) && st.variant == TabbedPage
    ensures Editing(st, b).None? ==> r == Handled(Skipped, st, s)
    ensures r.outcome.Succeeded? <==> Editing(st, b).Some? && writeFault.None?
    ensures Editing(st, b).Some? && writeFault.Some? ==> r.outcome == Failed
    ensures !r.outcome.Succeeded? ==> r.store == s && r.state == st
    ensures r.outcome.Succeeded? ==>
              var patch := Editing(st, b).value;
              && |Rows(r.store, b)| == |Rows(s, b)|
              && r.store == WithRows(s, b, Rows(r.store, b))
              && (forall i :: 0 <= i < |Rows(s, b)| ==> Rows(r.store, b)[i] == Patched(Rows(s, b)[i], patch))
              && r.state == WithEditing(WithListed(st, b, Listed(r.state, b)), b, None)
              && Relisted(b, st, r.state, r.store, refetchFault)
  {
    match Editing(st, b)
    case None => Handled(Skipped, st, s)
    case Some(patch) =>
      if writeFault.Some? then Handled(Failed, st, s)
      else
        var prior := Rows(s, b);
        var s' := WithRows(s, b, seq(|prior|, i requires 0 <= i < |prior| => Patched(prior[i], patch)));
        Handled(Succeeded, WithEditing(Refetch(st, s', st.clubId.value, b, refetchFault), b, None), s')
  }

  /** An update rewrites only the row whose id the edited object carries;
      every other row of every table is left as it was. */
  lemma UpdateTouchesOnlyItsRow(b: Board, st: AdminState, s: Store, writeFault: Option<string>,
                                refetchFault: bool, i: int)
    requires HasClub(st) && st.variant == TabbedPage
    requires 0 <= i < |Rows(s, b)|
    requires var e := Editing(st, b); e.Some? ==> !("id" in e.value && e.value["id"] == Str(Rows(s, b)[i].id))
    ensures var r := UpdatePost(b, st, s, writeFault, refetchFault);
            |Rows(r.store, b)| == |Rows(s, b)| && Rows(r.store, b)[i] == Rows(s, b)[i]
  {
  }

  /** The rows of a table whose key is `id`. */
  function PostsWithId(rows: seq<Post>, id: Id): seq<Post>
  {
    Filter(rows, (p: Post) => p.id == id)
  }

  /** `handleDeleteEvent` / `handleDeleteAnnouncement`: after confirmation,
      delete the rows with the given id; on success refetch. */
  function DeletePost(b: Board, st: AdminState, s: Store, id: Id, confirmed: bool,
                      writeFault: Option<string>, refetchFault: bool): (r: Handled)
    requires HasClub(st) && st.variant == TabbedPage
    ensures !confirmed ==> r == Handled(Skipped, st, s)
    ensures r.outcome.Succeeded? <==> confirmed && writeFault.None?
    ensures confirmed && writeFault.Some? ==> r.outcome == Failed
    ensures !r.outcome.Succeeded? ==> r.store == s && r.state == st
    ensures r.outcome.Succeeded? ==>
              && r.store == WithRows(s, b, Rows(r.store, b))
              && (forall p :: p in Rows(r.store, b) <==> p in Rows(s, b) && p.id != id)
              && multiset(Rows(r.store, b)) + multiset(PostsWithId(Rows(s, b), id)) == multiset(Rows(s, b))
              && r.state == WithListed(st, b, Listed(r.state, b))
              && Relisted(b, st, r.state, r.store, refetchFault)
  {
    if !confirmed then Handled(Skipped, st, s)
    else if writeFault.Some? then Handled(Failed, st, s)
    else
      var kept := Reject(Rows(s, b), (p: Post) => p.id == id);
      FilterPartition(Rows(s, b), (p: Post) => p.id == id);
      assert multiset(kept) + multiset(PostsWithId(Rows(s, b), id)) == multiset(Rows(s, b));
      var s' := WithRows(s, b, kept);
      assert Rows(s', b) == kept;
      assert forall p :: p in Rows(s, b) && p.id != id ==> p in kept by {
        forall p | p in Rows(s, b) && p.id != id ensures p in kept {
          var k :| 0 <= k < |Rows(s, b)| && Rows(s, b)[k] == p;
        }
      }
      assert forall p :: p in kept ==> p in Rows(s, b) && p.id != id by {
        forall p | p in kept ensures p in Rows(s, b) && p.id != id {
          var k :| 0 <= k < |kept| && kept[k] == p;
        }
      }
      Handled(Succeeded, Refetch(st, s', st.clubId.value, b, refetchFault), s')
  }

  lemma PostsWithIdOfTwo(e1: Post, e2: Post)
    requires e1.id != e2.id
    ensures PostsWithId([e1, e2], e1.id) == [e1]
  {
    assert [e2][1..] == [];
    assert PostsWithId([e2], e1.id) == PostsWithId([], e1.id);
    assert [e1, e2][1..] == [e2];
    assert PostsWithId([e1, e2], e1.id) == [e1] + PostsWithId([e2], e1.id);
  }

  /** A sequence holding, with multiplicity, just `e` is `[e]`. */
  lemma OnlyElement(xs: seq<Post>, e: Post)
    requires multiset(xs) == multiset([e])
    ensures xs == [e]
  {
    assert |xs| == 1 by {
      assert |multiset(xs)| == |xs|;
    }
    assert xs[0] in multiset([e]);
  }

  /** What is left of `[e1, e2]` once `e1` is taken out, listed for a club
      `e2` belongs to, is `[e2]`. */
  lemma ListedAfterDelete(kept: seq<Post>, listed: seq<Post>, e1: Post, e2: Post, cid: Id)
    requires multiset(kept) + multiset([e1]) == multiset([e1, e2])
    requires multiset(listed) == multiset(ClubRows(kept, cid))
    requires ClubIs(e2, cid)
    ensures listed == [e2]
  {
    assert multiset(kept) == multiset([e2]);
    OnlyElement(kept, e2);
    assert ClubRows([e2], cid) == [e2] by {
      assert [e2][1..] == [];
    }
    OnlyElement(listed, e2);
  }

  /** Deleting one of a club's two events leaves the other as the only
      event listed. */
  lemma DeleteLeavesOtherEvent(st: AdminState, s: Store, e1: Post, e2: Post)
    requires HasClub(st) && st.variant == TabbedPage
    requires s.events == [e1, e2] && e1.id != e2.id
    requires ClubIs(e2, st.clubId.value)
    ensures DeletePost(Events, st, s, e1.id, true, None, false).state.events == [e2]
  {
    var r := DeletePost(Events, st, s, e1.id, true, None, false);
    assert Rows(s, Events) == [e1, e2];
    PostsWithIdOfTwo(e1, e2);
    ListedAfterDelete(r.store.events, r.state.events, e1, e2, st.clubId.value);
  }

  /** The profiles whose `email` equals `email`. */
  function ProfilesWithEmail(ps: seq<Profile>, email: string): seq<Profile>
  {
    Filter(ps, (p: Profile) => p.email == Some(email))
  }

  /** The memberships of `uid` in club `cid`. */
  function MembershipsOf(ms: seq<Membership>, cid: Id, uid: Id): seq<Membership>
  {
    Filter(ms, (m: Membership) => m.clubId == cid && m.userId == uid)
  }

  /** `handleAddMember`: refuse an empty email, an email without exactly one
      profile (or a failed lookup), and a user for whom the membership check
      finds a row; otherwise insert the membership. The code ignores an
      error from the membership check, so only a found row refuses.
      `newId` and `now` are the key the store assigns and the client's
      `joined_at` timestamp. */
  function AddMember(st: AdminState, s: Store, profileFault: Option<string>, checkFault: Option<string>,
                     newId: Id, now: string, insertFault: Option<string>, refetchFault: bool): (r: Handled)
    requires HasClub(st) && st.variant == TabbedPage
    ensures st.memberEmail == "" ==> r == Handled(Rejected(EmptyEmail), st, s)
    ensures st.memberEmail != "" && (profileFault.Some? || |ProfilesWithEmail(s.profiles, st.memberEmail)| != 1)
            ==> r == Handled(Rejected(NoSuchUser), st, s)
    ensures r.outcome == Rejected(AlreadyMember) <==>
              && st.memberEmail != "" && profileFault.None? && |ProfilesWithEmail(s.profiles, st.memberEmail)| == 1
              && checkFault.None?
              && |MembershipsOf(s.memberships, st.clubId.value, ProfilesWithEmail(s.profiles, st.memberEmail)[0].id)| == 1
    ensures r.outcome.Succeeded? <==>
              && st.memberEmail != "" && profileFault.None? && |ProfilesWithEmail(s.profiles, st.memberEmail)| == 1
              && (checkFault.Some?
                  || |MembershipsOf(s.memberships, st.clubId.value, ProfilesWithEmail(s.profiles, st.memberEmail)[0].id)| != 1)
              && insertFault.None? && !HasKey(s.memberships, MembershipKey, newId)
    ensures && st.memberEmail != "" && profileFault.None? && |ProfilesWithEmail(s.profiles, st.memberEmail)| == 1
            && (checkFault.Some?
                || |MembershipsOf(s.memberships, st.clubId.value, ProfilesWithEmail(s.profiles, st.memberEmail)[0].id)| != 1)
            && (insertFault.Some? || HasKey(s.memberships, MembershipKey, newId))
            ==> r.outcome == Failed
    ensures !r.outcome.Succeeded? ==> r.store == s && r.state == st
    ensures r.outcome.Succeeded? ==>
              var uid := ProfilesWithEmail(s.profiles, st.memberEmail)[0].id;
              && r.store == s.(memberships := s.memberships + [Membership(newId, st.clubId.value, uid, None, now)])
              && r.state == st.(memberEmail := "", members := r.state.members)
              && (!refetchFault ==> IsRoster(r.state.members, r.store, st.clubId.value))
              && (refetchFault ==> r.state.members == st.members)
  {
    var cid := st.clubId.value;
    if st.memberEmail == "" then Handled(Rejected(EmptyEmail), st, s)
    else
      var found := Single(ProfilesWithEmail(s.profiles, st.memberEmail), profileFault);
      if found.error.Some? || found.data.None? then Handled(Rejected(NoSuchUser), st, s)
      else
        var uid := found.data.value.id;
        var existing := Single(MembershipsOf(s.memberships, cid, uid), checkFault);
        if existing.data.Some? then Handled(Rejected(AlreadyMember), st, s)
        else
          var row := Membership(newId, cid, uid, None, now);
          match InsertRow(s.memberships, row, MembershipKey, insertFault)
          case None => Handled(Failed, st, s)
          case Some(ms) =>
            var s' := s.(memberships := ms);
            Handled(Succeeded, FetchMembers(st.(memberEmail := ""), s', cid, refetchFault), s')
  }

  /** A member added without faults is the last entry of the re-fetched
      roster, with the profile the email named. */
  lemma AddedMemberIsListed(st: AdminState, s: Store, p: Profile, newId: Id, now: string, checkFault: Option<string>)
    requires HasClub(st) && st.variant == TabbedPage
    requires AddMember(st, s, None, checkFault, newId, now, None, false).outcome.Succeeded?
    requires ProfilesWithEmail(s.profiles, st.memberEmail) == [p]
    ensures var roster := AddMember(st, s, None, checkFault, newId, now, None, false).state.members;
            && |roster| > 0
            && roster[|roster| - 1].membership == Membership(newId, st.clubId.value, p.id, None, now)
  {
    var cid := st.clubId.value;
    var row := Membership(newId, cid, p.id, None, now);
    FilterAppend(s.memberships, row, (m: Membership) => m.clubId == cid);
    assert ClubMemberships(s.memberships + [row], cid) == ClubMemberships(s.memberships, cid) + [row];
  }

  /** A user already in the club is refused and no row is written, so the
      roster keeps one row for them. */
  lemma DuplicateJoinRejected(st: AdminState, s: Store, m: Membership, p: Profile,
                              newId: Id, now: string, insertFault: Option<string>, refetchFault: bool)
    requires HasClub(st) && st.variant == TabbedPage && st.memberEmail != ""
    requires ProfilesWithEmail(s.profiles, st.memberEmail) == [p]
    requires MembershipsOf(s.memberships, st.clubId.value, p.id) == [m]
    ensures var r := AddMember(st, s, None, None, newId, now, insertFault, refetchFault);
            r.outcome == Rejected(AlreadyMember) && r.store == s
            && MembershipsOf(r.store.memberships, st.clubId.value, p.id) == [m]
  {
  }

  /** As written, a failing membership check does not stop the insert: a
      user who is already a member gets a second row. */
  lemma FailedCheckAdmitsDuplicate(st: AdminState, s: Store, m: Membership, p: Profile,
                                   newId: Id, now: string, refetchFault: bool)
    requires HasClub(st) && st.variant == TabbedPage && st.memberEmail != ""
    requires ProfilesWithEmail(s.profiles, st.memberEmail) == [p]
    requires MembershipsOf(s.memberships, st.clubId.value, p.id) == [m]
    requires !HasKey(s.memberships, MembershipKey, newId)
    ensures var r := AddMember(st, s, None, Some("network"), newId, now, None, refetchFault);
            r.outcome == Succeeded
            && |MembershipsOf(r.store.memberships, st.clubId.value, p.id)| == 2
  {
    var r := AddMember(st, s, None, Some("network"), newId, now, None, refetchFault);
    var row := Membership(newId, st.clubId.value, p.id, None, now);
    FilterAppend(s.memberships, row, (x: Membership) => x.clubId == st.clubId.value && x.userId == p.id);
  }

  /** `handleRemoveMember`: after confirmation, delete the memberships
      matching both the club and the user; on success refetch. */
  function RemoveMember(st: AdminState, s: Store, uid: Id, confirmed: bool,
                        writeFault: Option<string>, refetchFault: bool): (r: Handled)
    requires HasClub(st) && st.variant == TabbedPage
    ensures !confirmed ==> r == Handled(Skipped, st, s)
    ensures confirmed && writeFault.Some? ==> r.outcome == Failed
    ensures !r.outcome.Succeeded? ==> r.store == s && r.state == st
    ensures r.outcome.Succeeded? <==> confirmed && writeFault.None?
    ensures r.outcome.Succeeded? ==>
              && r.store == s.(memberships := r.store.memberships)
              && (forall m :: m in r.store.memberships <==>
                    m in s.memberships && !(m.clubId == st.clubId.value && m.userId == uid))
              && multiset(r.store.memberships) + multiset(MembershipsOf(s.memberships, st.clubId.value, uid))
                 == multiset(s.memberships)
              && r.state == st.(members := r.state.members)
              && (!refetchFault ==> IsRoster(r.state.members, r.store, st.clubId.value))
              && (refetchFault ==> r.state.members == st.members)
  {
    if !confirmed then Handled(Skipped, st, s)
    else if writeFault.Some? then Handled(Failed, st, s)
    else
      var cid := st.clubId.value;
      var kept := Reject(s.memberships, (m: Membership) => m.clubId == cid && m.userId == uid);
      FilterPartition(s.memberships, (m: Membership) => m.clubId == cid && m.userId == uid);
      assert multiset(kept) + multiset(MembershipsOf(s.memberships, cid, uid)) == multiset(s.memberships);
      assert forall m :: m in s.memberships && !(m.clubId == cid && m.userId == uid) ==> m in kept by {
        forall m | m in s.memberships && !(m.clubId == cid && m.userId == uid) ensures m in kept {
          var k :| 0 <= k < |s.memberships| && s.memberships[k] == m;
        }
      }
      assert forall m :: m in kept ==> m in s.memberships && !(m.clubId == cid && m.userId == uid) by {
        forall m | m in kept ensures m in s.memberships && !(m.clubId == cid && m.userId == uid) {
          var k :| 0 <= k < |kept| && kept[k] == m;
        }
      }
      var s' := s.(memberships := kept);
      Handled(Succeeded, FetchMembers(st, s', cid, refetchFault), s')
  }

  /** After a removal, the re-fetched roster has no entry for the user. */
  lemma RemovedMemberIsNotListed(st: AdminState, s: Store, uid: Id)
    requires HasClub(st) && st.variant == TabbedPage
    ensures var roster := RemoveMember(st, s, uid, true, None, false).state.members;
            forall i :: 0 <= i < |roster| ==> roster[i].membership.userId != uid
  {
    var r := RemoveMember(st, s, uid, true, None, false);
    var ms := ClubMemberships(r.store.memberships, st.clubId.value);
    forall i | 0 <= i < |r.state.members| ensures r.state.members[i].membership.userId != uid {
      assert r.state.members[i].membership == ms[i];
      assert ms[i] in r.store.memberships;
    }
  }

  // ----- CSV export -----

  const CsvHeader: seq<string> := ["Name", "Email", "Joined At"]

  /** `value || "N/A"`: a missing or empty value prints as `N/A`. */
  function OrNA(o: Option<string>): (r: string)
    ensures r != ""
    ensures o.Some? && o.value != "" ==> r == o.value
  {
    if o.Some? && o.value != "" then o.value else "N/A"
  }

  /** One member's record; `formatJoined` stands for the date formatting
      of `joined_at`. */
  function MemberRecord(m: Member, formatJoined: string -> string): (r: seq<string>)
    ensures |r| == 3
  {
    [OrNA(if m.profile.Some? then m.profile.value.fullName else None),
     OrNA(if m.profile.Some? then m.profile.value.email else None),
     formatJoined(m.membership.joinedAt)]
  }

  function CsvRecords(members: seq<Member>, formatJoined: string -> string): (r: seq<seq<string>>)
    ensures |r| == |members| + 1 && r[0] == CsvHeader
    ensures forall i :: 0 <= i < |members| ==> r[i + 1] == MemberRecord(members[i], formatJoined)
  {
    [CsvHeader] + seq(|members|, i requires 0 <= i < |members| => MemberRecord(members[i], formatJoined))
  }

  /** `exportMembersToCSV`'s file content. */
  function MembersCsv(members: seq<Member>, formatJoined: string -> string): string
  {
    Csv.Encode(CsvRecords(members, formatJoined))
  }

  /** No name or e-mail value holds a comma or a line feed, and no formatted
      join date holds a line feed. The date may hold commas: the `PPpp`
      pattern writes them (`Jan 10, 2025, 3:45:00 PM`). */
  predicate ContactsPlain(members: seq<Member>, formatJoined: string -> string)
  {
    forall i :: 0 <= i < |members| ==>
      ',' !in MemberRecord(members[i], formatJoined)[0] && '\n' !in MemberRecord(members[i], formatJoined)[0]
      && ',' !in MemberRecord(members[i], formatJoined)[1] && '\n' !in MemberRecord(members[i], formatJoined)[1]
      && '\n' !in MemberRecord(members[i], formatJoined)[2]
  }

  /** Reading the export back line by line and field by field yields the
      header and then, per member in roster order, the name, the e-mail and
      the join date cut at each of its commas. The member's record comes
      back whole exactly when its date holds no comma. */
  lemma MembersCsvReadsBack(members: seq<Member>, formatJoined: string -> string)
    requires ContactsPlain(members, formatJoined)
    ensures var rows := Csv.Decode(MembersCsv(members, formatJoined));
            && |rows| == |members| + 1
            && rows[0] == CsvHeader
            && (forall i :: 0 <= i < |members| ==>
                  rows[i + 1] == MemberRecord(members[i], formatJoined)[..2]
                                 + Csv.Split(formatJoined(members[i].membership.joinedAt), ','))
            && (forall i :: 0 <= i < |members| ==>
                  (rows[i + 1] == MemberRecord(members[i], formatJoined)
                   <==> ',' !in formatJoined(members[i].membership.joinedAt)))
  {
    var records := CsvRecords(members, formatJoined);
    forall i, j | 0 <= i < |records| && 0 <= j < |records[i]| ensures '\n' !in records[i][j] {
      if i > 0 {
        assert records[i] == MemberRecord(members[i - 1], formatJoined);
      }
    }
    Csv.DecodeEncodeLines(records);
    Csv.SplitJoin(CsvHeader, ',');
    forall i | 0 <= i < |members|
      ensures Csv.Split(Csv.Join(records[i + 1], ','), ',')
              == MemberRecord(members[i], formatJoined)[..2] + Csv.Split(formatJoined(members[i].membership.joinedAt), ',')
      ensures Csv.Split(Csv.Join(records[i + 1], ','), ',') == MemberRecord(members[i], formatJoined)
              <==> ',' !in formatJoined(members[i].membership.joinedAt)
    {
      MemberLineReadsBack(members[i], formatJoined);
    }
  }

  lemma MemberLineReadsBack(m: Member, formatJoined: string -> string)
    requires ',' !in MemberRecord(m, formatJoined)[0] && ',' !in MemberRecord(m, formatJoined)[1]
    ensures var rec := MemberRecord(m, formatJoined);
            var line := Csv.Split(Csv.Join(rec, ','), ',');
            && line == rec[..2] + Csv.Split(formatJoined(m.membership.joinedAt), ',')
            && (line == rec <==> ',' !in formatJoined(m.membership.joinedAt))
  {
    var rec := MemberRecord(m, formatJoined);
    assert rec == [rec[0], rec[1], formatJoined(m.membership.joinedAt)];
    assert rec[..2] == [rec[0], rec[1]];
    Csv.SplitThree(rec[0], rec[1], formatJoined(m.membership.joinedAt), ',');
  }

  /** As written: a join date that `PPpp` formats with two commas (`Jan 10,
      2025, 3:45:00 PM`) reads back as three fields, so the member's line
      has five fields under a three-field header. */
  lemma JoinedAtCommasShiftColumns(m: Member, formatJoined: string -> string, a: string, b: string, c: string)
    requires ContactsPlain([m], formatJoined)
    requires formatJoined(m.membership.joinedAt) == a + [','] + b + [','] + c
    requires ',' !in a && ',' !in b && ',' !in c
    ensures var rows := Csv.Decode(MembersCsv([m], formatJoined));
            |rows| == 2 && |rows[0]| == 3 && |rows[1]| == 5 && rows[1][2..] == [a, b, c]
  {
    MembersCsvReadsBack([m], formatJoined);
    var date := formatJoined(m.membership.joinedAt);
    assert date == a + [','] + (b + [','] + c);
    Csv.SplitAtFirstSep(a, b + [','] + c, ',');
    Csv.SplitAtFirstSep(b, c, ',');
    Csv.SplitWithoutSep(c, ',');
    assert Csv.Split(date, ',') == [a, b, c];
    var rows := Csv.Decode(MembersCsv([m], formatJoined));
    assert rows[1] == MemberRecord([m][0], formatJoined)[..2] + Csv.Split(date, ',');
    assert |MemberRecord(m, formatJoined)[..2]| == 2;
  }

  /** No value of any member holds a quote mark or a line feed. */
  predicate ValuesQuotable(members: seq<Member>, formatJoined: string -> string)
  {
    forall i, j :: 0 <= i < |members| && 0 <= j < 3 ==>
      '"' !in MemberRecord(members[i], formatJoined)[j] && '\n' !in MemberRecord(members[i], formatJoined)[j]
  }

  /** Corrected export: every value quoted, so the commas of the join date
      stay inside the Joined At column. */
  function MembersCsvQuoted(members: seq<Member>, formatJoined: string -> string): string
  {
    Csv.EncodeQuoted(CsvRecords(members, formatJoined))
  }

  /** The quoted export reads back as exactly the header and each member's
      three values, whatever commas the values hold. */
  lemma MembersCsvQuotedReadsBack(members: seq<Member>, formatJoined: string -> string)
    requires ValuesQuotable(members, formatJoined)
    ensures var rows := Csv.DecodeQuoted(MembersCsvQuoted(members, formatJoined));
            && |rows| == |members| + 1
            && rows[0] == CsvHeader
            && forall i :: 0 <= i < |members| ==> rows[i + 1] == MemberRecord(members[i], formatJoined)
  {
    var records := CsvRecords(members, formatJoined);
    forall i | 0 <= i < |records| ensures records[i] != [] {
      if i > 0 {
        assert records[i] == MemberRecord(members[i - 1], formatJoined);
      }
    }
    forall i, j | 0 <= i < |records| && 0 <= j < |records[i]|
      ensures '"' !in records[i][j] && '\n' !in records[i][j]
    {
      if i > 0 {
        assert records[i] == MemberRecord(members[i - 1], formatJoined);
      }
    }
    Csv.DecodeEncodeQuoted(records);
  }
}

=== FILE: csv.dfy ===
/** Comma-separated text as the admin page writes it: fields joined by `,`,
    records joined by a line feed, with no quoting. `Decode` is the reading
    that inverts it whenever no field holds a separator. `EncodeQuoted` and
    `DecodeQuoted` are the quoted form, which keeps commas inside fields. */
module Csv {

  /** `Array.prototype.join`: the parts with `sep` between neighbours. */
  function Join(xs: seq<string>, sep: char): string
  {
    if xs == [] then ""
    else if |xs| == 1 then xs[0]
    else xs[0] + [sep] + Join(xs[1..], sep)
  }

  /** Cuts `s` at every `sep`; a string without `sep` is one part. */
  function Split(s: string, sep: char): (r: seq<string>)
    ensures |r| >= 1
  {
    if s == [] then [""]
    else
      var rest := Split(s[1..], sep);
      if s[0] == sep then [""] + rest
      else [[s[0]] + rest[0]] + rest[1..]
  }

  lemma {:induction false} SplitWithoutSep(a: string, sep: char)
    requires sep !in a
    ensures Split(a, sep) == [a]
  {
    if a != [] {
      SplitWithoutSep(a[1..], sep);
      assert [a[0]] + a[1..] == a;
    }
  }

  lemma {:induction false} SplitAtFirstSep(a: string, b: string, sep: char)
    requires sep !in a
    ensures Split(a + [sep] + b, sep) == [a] + Split(b, sep)
  {
    var s := a + [sep] + b;
    if a == [] {
      assert s[0] == sep && s[1..] == b;
    } else {
      assert s[0] == a[0] && s[1..] == a[1..] + [sep] + b;
      SplitAtFirstSep(a[1..], b, sep);
      assert [a[0]] + a[1..] == a;
    }
  }

  /** A string holding `sep` is cut into more than one part. */
  lemma {:induction false} SplitHasSep(s: string, sep: char)
    requires sep in s
    ensures |Split(s, sep)| > 1
  {
    if s[0] != sep {
      SplitHasSep(s[1..], sep);
    }
  }

  /** Three parts, the first two without `sep`: the third is cut at its own
      separators, so the parts come back as they were exactly when the
      third holds no `sep` either. */
  lemma SplitThree(a: string, b: string, c: string, sep: char)
    requires sep !in a && sep !in b
    ensures Split(Join([a, b, c], sep), sep) == [a, b] + Split(c, sep)
    ensures Split(Join([a, b, c], sep), sep) == [a, b, c] <==> sep !in c
  {
    assert [a, b, c][1..] == [b, c] && [b, c][1..] == [c];
    assert Join([b, c], sep) == b + [sep] + c;
    assert Join([a, b, c], sep) == a + [sep] + (b + [sep] + c);
    SplitAtFirstSep(a, b + [sep] + c, sep);
    SplitAtFirstSep(b, c, sep);
    if sep in c {
      SplitHasSep(c, sep);
    } else {
      SplitWithoutSep(c, sep);
    }
  }

  /** Splitting undoes joining when no part contains the separator. */
  lemma {:induction false} SplitJoin(xs: seq<string>, sep: char)
    requires xs != []
    requires forall i :: 0 <= i < |xs| ==> sep !in xs[i]
    ensures Split(Join(xs, sep), sep) == xs
  {
    if |xs| == 1 {
      SplitWithoutSep(xs[0], sep);
    } else {
      SplitJoin(xs[1..], sep);
      SplitAtFirstSep(xs[0], Join(xs[1..], sep), sep);
      assert xs == [xs[0]] + xs[1..];
    }
  }

  /** A character that is neither the separator nor in any part is not in
      the joined text. */
  lemma {:induction false} JoinAvoids(xs: seq<string>, sep: char, c: char)
    requires c != sep
    requires forall i :: 0 <= i < |xs| ==> c !in xs[i]
    ensures c !in Join(xs, sep)
  {
    if |xs| > 1 {
      JoinAvoids(xs[1..], sep, c);
      assert c !in xs[0];
    }
  }

  /** One line per record, fields separated by commas. */
  function Encode(records: seq<seq<string>>): string
  {
    Join(seq(|records|, i requires 0 <= i < |records| => Join(records[i], ',')), '\n')
  }

  /** Lines, then comma-separated fields. */
  function Decode(text: string): seq<seq<string>>
  {
    var lines := Split(text, '\n');
    seq(|lines|, i requires 0 <= i < |lines| => Split(lines[i], ','))
  }

  /** No field holds a comma or a line feed. */
  predicate Plain(records: seq<seq<string>>)
  {
    forall i, j :: 0 <= i < |records| && 0 <= j < |records[i]| ==>
      ',' !in records[i][j] && '\n' !in records[i][j]
  }

  /** Reading back the written text gives the records, provided there is a
      record, every record has a field, and no field needs quoting. */
  lemma DecodeEncode(records: seq<seq<string>>)
    requires records != []
    requires forall i :: 0 <= i < |records| ==> records[i] != []
    requires Plain(records)
    ensures Decode(Encode(records)) == records
  {
    var lines := seq(|records|, i requires 0 <= i < |records| => Join(records[i], ','));
    forall i | 0 <= i < |lines| ensures '\n' !in lines[i] && Split(lines[i], ',') == records[i] {
      JoinAvoids(records[i], ',', '\n');
      SplitJoin(records[i], ',');
    }
    SplitJoin(lines, '\n');
  }

  /** Reading back the written text gives one line per record, each line
      cut at every comma, provided there is a record and no field holds a
      line feed. A field holding a comma is cut too. */
  lemma DecodeEncodeLines(records: seq<seq<string>>)
    requires records != []
    requires forall i, j :: 0 <= i < |records| && 0 <= j < |records[i]| ==> '\n' !in records[i][j]
    ensures |Decode(Encode(records))| == |records|
    ensures forall i :: 0 <= i < |records| ==> Decode(Encode(records))[i] == Split(Join(records[i], ','), ',')
  {
    var lines := seq(|records|, i requires 0 <= i < |records| => Join(records[i], ','));
    forall i | 0 <= i < |lines| ensures '\n' !in lines[i] {
      JoinAvoids(records[i], ',', '\n');
    }
    SplitJoin(lines, '\n');
  }

  /** Without quoting, a field holding a comma comes back as two fields. */
  lemma CommaInFieldSplitsIt(a: string, b: string)
    requires ',' !in a && ',' !in b && '\n' !in a && '\n' !in b
    ensures Decode(Encode([[a + [','] + b]])) == [[a, b]]
  {
    var field := a + [','] + b;
    assert '\n' !in field;
    DecodeEncodeLines([[field]]);
    assert Join([field], ',') == field;
    SplitAtFirstSep(a, b, ',');
    SplitWithoutSep(b, ',');
    var rows := Decode(Encode([[field]]));
    assert |rows| == 1 && rows[0] == [a, b];
  }

  // ----- Quoted fields -----

  /** A field wrapped in double quotes. */
  function Quote(f: string): string
  {
    ['"'] + f + ['"']
  }

  function QuoteAll(fields: seq<string>): (r: seq<string>)
    ensures |r| == |fields|
    ensures forall i :: 0 <= i < |fields| ==> r[i] == Quote(fields[i])
  {
    seq(|fields|, i requires 0 <= i < |fields| => Quote(fields[i]))
  }

  /** One line per record, every field quoted, fields separated by commas
      (section 2 of RFC 4180, for fields without quote marks). */
  function EncodeQuoted(records: seq<seq<string>>): string
  {
    Join(seq(|records|, i requires 0 <= i < |records| => Join(QuoteAll(records[i]), ',')), '\n')
  }

  /** Cuts a line at the commas outside quotes and drops the quote marks;
      `quoted` says whether the scan is inside a quoted field. */
  function SplitQuoted(s: string, quoted: bool): (r: seq<string>)
    ensures |r| >= 1
  {
    if s == [] then [""]
    else if s[0] == '"' then SplitQuoted(s[1..], !quoted)
    else
      var rest := SplitQuoted(s[1..], quoted);
      if s[0] == ',' && !quoted then [""] + rest
      else [[s[0]] + rest[0]] + rest[1..]
  }

  /** Lines, then fields, with quoted commas kept. */
  function DecodeQuoted(text: string): seq<seq<string>>
  {
    var lines := Split(text, '\n');
    seq(|lines|, i requires 0 <= i < |lines| => SplitQuoted(lines[i], false))
  }

  /** No field holds a quote mark or a line feed; commas are allowed. */
  predicate Quotable(records: seq<seq<string>>)
  {
    forall i, j :: 0 <= i < |records| && 0 <= j < |records[i]| ==>
      '"' !in records[i][j] && '\n' !in records[i][j]
  }

  /** Inside a quoted field every character up to the closing quote, commas
      included, belongs to the field. */
  lemma {:induction false} InsideQuotes(a: string, t: string)
    requires '"' !in a
    ensures var rest := SplitQuoted(t, false);
            SplitQuoted(a + ['"'] + t, true) == [a + rest[0]] + rest[1..]
  {
    var s := a + ['"'] + t;
    var rest := SplitQuoted(t, false);
    if a == [] {
      assert s[0] == '"' && s[1..] == t;
      assert SplitQuoted(s, true) == rest;
      assert a + rest[0] == rest[0];
      assert [rest[0]] + rest[1..] == rest;
    } else {
      assert s[0] == a[0] && a[0] != '"';
      assert s[1..] == a[1..] + ['"'] + t;
      InsideQuotes(a[1..], t);
      var inner := SplitQuoted(s[1..], true);
      assert inner == [a[1..] + rest[0]] + rest[1..];
      assert SplitQuoted(s, true) == [[a[0]] + inner[0]] + inner[1..];
      assert [a[0]] + (a[1..] + rest[0]) == a + rest[0];
    }
  }

  lemma QuotedThenComma(a: string, t: string)
    requires '"' !in a
    ensures SplitQuoted(Quote(a) + [','] + t, false) == [a] + SplitQuoted(t, false)
  {
    var s := Quote(a) + [','] + t;
    var t' := [','] + t;
    assert s[0] == '"' && s[1..] == a + ['"'] + t';
    assert SplitQuoted(s, false) == SplitQuoted(a + ['"'] + t', true);
    InsideQuotes(a, t');
    assert t'[0] == ',' && t'[1..] == t;
    assert SplitQuoted(t', false) == [""] + SplitQuoted(t, false);
    assert a + "" == a;
  }

  lemma QuotedAlone(a: string)
    requires '"' !in a
    ensures SplitQuoted(Quote(a), false) == [a]
  {
    var s := Quote(a);
    assert s[0] == '"' && s[1..] == a + ['"'] + [];
    assert SplitQuoted(s, false) == SplitQuoted(a + ['"'] + [], true);
    InsideQuotes(a, []);
    assert SplitQuoted([], false) == [""];
    assert a + "" == a;
  }

  /** Splitting outside quotes undoes joining quoted fields. */
  lemma {:induction false} SplitJoinQuoted(fields: seq<string>)
    requires fields != []
    requires forall i :: 0 <= i < |fields| ==> '"' !in fields[i]
    ensures SplitQuoted(Join(QuoteAll(fields), ','), false) == fields
  {
    var q := QuoteAll(fields);
    if |fields| == 1 {
      QuotedAlone(fields[0]);
    } else {
      assert q[1..] == QuoteAll(fields[1..]);
      SplitJoinQuoted(fields[1..]);
      QuotedThenComma(fields[0], Join(q[1..], ','));
      assert fields == [fields[0]] + fields[1..];
    }
  }

  /** Reading back the quoted text gives the records, commas in fields
      included, provided there is a record, every record has a field, and no
      field holds a quote mark or a line feed. */
  lemma DecodeEncodeQuoted(records: seq<seq<string>>)
    requires records != []
    requires forall i :: 0 <= i < |records| ==> records[i] != []
    requires Quotable(records)
    ensures DecodeQuoted(EncodeQuoted(records)) == records
  {
    var lines := seq(|records|, i requires 0 <= i < |records| => Join(QuoteAll(records[i]), ','));
    forall i | 0 <= i < |lines| ensures '\n' !in lines[i] && SplitQuoted(lines[i], false) == records[i] {
      var q := QuoteAll(records[i]);
      forall j | 0 <= j < |q| ensures '\n' !in q[j] {
        assert q[j] == ['"'] + records[i][j] + ['"'];
      }
      JoinAvoids(q, ',', '\n');
      SplitJoinQuoted(records[i]);
    }
    SplitJoin(lines, '\n');
  }
}

=== FILE: login.dfy ===
/** The login page's session handling (src/pages/Login.js): provisioning a
    profile on first sight of a signed-in user, and sending the user to the
    dashboard their role selects. */
module Login {
  import opened Remote
  import opened Seqs
  import opened Routes

  /** The auth event that triggers provisioning. */
  const SignedIn := "SIGNED_IN"

  /** The row inserted for a user seen for the first time. */
  function NewProfile(user: AuthUser): Profile
  {
    Profile(user.id, user.email, Some("user"), None)
  }

  /** What `ensureProfile` resolves to, with the store it leaves behind. */
  datatype Provisioned = Provisioned(profile: Option<Profile>, store: Store)

  /** `ensureProfile`: look the profile up by id; on a "no rows" answer
      (no data, or code PGRST116) insert a `user` profile; on any other
      lookup error, or a failed insert, resolve to nothing. */
  function EnsureProfile(s: Store, user: AuthUser, lookupFault: Option<string>,
                         insertFault: Option<string>): (r: Provisioned)
    // Only the profiles table can change, and only by the one new row.
    ensures r.store == s || r.store == s.(profiles := s.profiles + [NewProfile(user)])
    ensures r.store != s ==> !HasKey(s.profiles, ProfileKey, user.id) && r.profile == Some(NewProfile(user))
    ensures UniqueKeys(s.profiles, ProfileKey) ==> UniqueKeys(r.store.profiles, ProfileKey)
    // Whatever profile comes back belongs to this user and is stored.
    ensures r.profile.Some? ==> r.profile.value.id == user.id && r.profile.value in r.store.profiles
    // An existing profile is returned as stored, and nothing is inserted.
    ensures lookupFault.None? && UniqueKeys(s.profiles, ProfileKey) && HasKey(s.profiles, ProfileKey, user.id)
            ==> r.store == s && r.profile.Some? && r.profile.value in s.profiles
    // No profile yet: exactly one `user` profile is inserted and returned.
    ensures lookupFault.None? && !HasKey(s.profiles, ProfileKey, user.id) && insertFault.None?
            ==> r == Provisioned(Some(NewProfile(user)), s.(profiles := s.profiles + [NewProfile(user)]))
    // Any other lookup error resolves to nothing and changes nothing.
    ensures lookupFault.Some? && lookupFault != Some(NoRowsCode) ==> r == Provisioned(None, s)
    // A failed insert changes nothing; only an already stored row can come back.
    ensures insertFault.Some? ==> r.store == s && (r.profile.Some? ==> r.profile.value in s.profiles)
  {
    ProfileLookupByKey(s.profiles, user.id);
    var found := Single(ProfilesWithId(s.profiles, user.id), lookupFault);
    if found.error.Some? && found.error.value != NoRowsCode then
      Provisioned(None, s)
    else if found.data.None? then
      match InsertRow(s.profiles, NewProfile(user), ProfileKey, insertFault)
      case None => Provisioned(None, s)
      case Some(ps) => Provisioned(Some(NewProfile(user)), s.(profiles := ps))
    else
      Provisioned(found.data, s)
  }

  /** Provisioning is idempotent: a second run for the same user finds the
      row the first run found or created, inserts nothing, and resolves to
      the same profile, so the store holds exactly one profile for the user. */
  lemma EnsureProfileIdempotent(s: Store, user: AuthUser)
    requires UniqueKeys(s.profiles, ProfileKey)
    ensures var first := EnsureProfile(s, user, None, None);
            var second := EnsureProfile(first.store, user, None, None);
            && first.profile.Some?
            && second.store == first.store
            && second.profile == first.profile
            && |ProfilesWithId(second.store.profiles, user.id)| == 1
  {
    var first := EnsureProfile(s, user, None, None);
    ProfileLookupByKey(s.profiles, user.id);
    ProfileLookupByKey(first.store.profiles, user.id);
    assert HasKey(first.store.profiles, ProfileKey, user.id) by {
      var k :| 0 <= k < |first.store.profiles| && first.store.profiles[k] == first.profile.value;
    }
  }

  /** `redirectUser`: no profile means no navigation; an `admin` role goes
      to the admin dashboard and every other role value, absent included,
      to the user dashboard. */
  function RedirectUser(profile: Option<Profile>): (r: Option<Path>)
    ensures r.Some? <==> profile.Some?
    ensures r.Some? ==> (r.value == AdminPath <==> profile.value.role == Some("admin"))
    ensures r.Some? ==> r.value in {AdminPath, UserPath}
  {
    match profile
    case None => None
    case Some(p) => if p.role == Some("admin") then Some(AdminPath) else Some(UserPath)
  }

  /** Both destinations are registered routes, and the page reached is
      decided by the role alone. */
  lemma RedirectLandsOnDashboard(p: Profile)
    ensures var dest := RedirectUser(Some(p));
            && dest.Some?
            && Resolve(dest.value) == (if p.role == Some("admin") then Some(AdminDashboardPage)
                                      else Some(UserDashboardPage))
  {
    RouteTable();
  }

  /** Wherever a redirect goes, a registered route renders, and it is not
      the login page. */
  lemma RedirectResolves(profile: Option<Profile>)
    ensures RedirectUser(profile).Some? ==>
              Resolve(RedirectUser(profile).value).Some? && RedirectUser(profile).value != LoginPath
  {
    if profile.Some? {
      RedirectLandsOnDashboard(profile.value);
    }
  }

  /** Two profiles with the same role are routed identically. */
  lemma RedirectDependsOnlyOnRole(p: Profile, q: Profile)
    requires p.role == q.role
    ensures RedirectUser(Some(p)) == RedirectUser(Some(q))
  {
  }

  /** What a session notification leads to: a navigation, if any, and the
      store after provisioning. */
  datatype Reaction = Reaction(navigate: Option<Path>, store: Store)

  /** Provision the session's user and redirect by the resulting profile. */
  function SignInFlow(s: Store, user: AuthUser, lookupFault: Option<string>,
                      insertFault: Option<string>): (r: Reaction)
    ensures r.navigate.Some? ==> Resolve(r.navigate.value).Some? && r.navigate.value != LoginPath
    ensures var p := EnsureProfile(s, user, lookupFault, insertFault);
            && r.store == p.store && (r.navigate.Some? <==> p.profile.Some?)
            && (r.navigate.Some? ==> && r.navigate.value in {AdminPath, UserPath}
                                     && (r.navigate.value == AdminPath <==> p.profile.value.role == Some("admin")))
  {
    var p := EnsureProfile(s, user, lookupFault, insertFault);
    RedirectResolves(p.profile);
    Reaction(RedirectUser(p.profile), p.store)
  }

  /** The auth-state listener: only a `SIGNED_IN` event carrying a session
      provisions and redirects; every other notification does nothing. */
  function OnAuthStateChange(event: string, session: Option<Session>, s: Store,
                             lookupFault: Option<string>, insertFault: Option<string>): (r: Reaction)
    ensures !(event == SignedIn && session.Some?) ==> r == Reaction(None, s)
    ensures event == SignedIn && session.Some? ==>
              r == SignInFlow(s, session.value.user, lookupFault, insertFault)
  {
    if event == SignedIn && session.Some? then SignInFlow(s, session.value.user, lookupFault, insertFault)
    else Reaction(None, s)
  }

  /** The initial session check on page load: with a session, provision
      and redirect; without one, stay on the login page. */
  function InitAuth(session: Option<Session>, s: Store,
                    lookupFault: Option<string>, insertFault: Option<string>): (r: Reaction)
    ensures session.None? ==> r == Reaction(None, s)
    ensures session.Some? ==> r == SignInFlow(s, session.value.user, lookupFault, insertFault)
  {
    match session
    case None => Reaction(None, s)
    case Some(sess) => SignInFlow(s, sess.user, lookupFault, insertFault)
  }

  /** A user signing in for the first time gets a `user` profile and is
      sent to the user dashboard. */
  lemma FirstSignInLandsOnUserDashboard(s: Store, user: AuthUser)
    requires !HasKey(s.profiles, ProfileKey, user.id)
    ensures var r := OnAuthStateChange(SignedIn, Some(Session(user)), s, None, None);
            && r.store == s.(profiles := s.profiles + [NewProfile(user)])
            && r.navigate == Some(UserPath)
            && Resolve(UserPath) == Some(UserDashboardPage)
  {
    var p := EnsureProfile(s, user, None, None);
    assert p == Provisioned(Some(NewProfile(user)), s.(profiles := s.profiles + [NewProfile(user)]));
    assert RedirectUser(p.profile) == Some(UserPath);
    RouteTable();
  }

  /** A signed-in admin whose profile exists is sent to the admin
      dashboard, and the store is left as it was. */
  lemma AdminSignInLandsOnAdminDashboard(s: Store, user: AuthUser, p: Profile)
    requires UniqueKeys(s.profiles, ProfileKey)
    requires p in s.profiles && p.id == user.id && p.role == Some("admin")
    ensures var r := OnAuthStateChange(SignedIn, Some(Session(user)), s, None, None);
            r.store == s && r.navigate == Some(AdminPath)
  {
    ProfileLookupByKey(s.profiles, user.id);
  }
}

=== FILE: remote.dfy ===
/** The hosted data store the pages talk to, treated as a plain value: one
    sequence of rows per table, plus the client-visible semantics of the
    few query shapes the pages use (equality filters, `.single()` lookups,
    inserts under a primary key, deletes by filter). Transport failures are
    explicit `fault` inputs rather than something the model predicts. */
module Remote {
  import opened Seqs

  datatype Option<+T> = None | Some(value: T)

  /** Row keys and user ids (UUIDs in the store). */
  type Id = string

  /** A column value as the client sees it in a row, a form or a patch. */
  datatype Value = Null | Str(s: string) | Num(n: int)

  /** A JavaScript object literal: a form's state, an update patch, or the
      client-written columns of a row. */
  type Obj = map<string, Value>

  /** The signed-in identity the auth service hands out. */
  datatype AuthUser = AuthUser(id: Id, email: Option<string>)

  /** An auth session; the service always attaches its user. */
  datatype Session = Session(user: AuthUser)

  datatype Profile = Profile(id: Id, email: Option<string>, role: Option<string>, fullName: Option<string>)

  datatype Club = Club(id: Id, adminUserId: Id, name: Option<string>,
                       description: Option<string>, logoUrl: Option<string>)

  /** A membership row; `joined_at` is kept as the opaque timestamp string
      the client or the store wrote. */
  datatype Membership = Membership(id: Id, clubId: Id, userId: Id, role: Option<string>, joinedAt: string)

  /** An event or announcement row: the store-assigned key and creation
      time, and every other column (`club_id`, `created_by`, `title`, `date`,
      ...) as the client wrote it. */
  datatype Post = Post(id: Id, createdAt: int, columns: Obj)

  /** Order key for `created_at` descending: a smaller key is newer. */
  function NewestFirst(p: Post): int
  {
    -p.createdAt
  }

  datatype Store = Store(profiles: seq<Profile>, clubs: seq<Club>, memberships: seq<Membership>,
                         events: seq<Post>, announcements: seq<Post>)

  /** The row a to-one embed (`clubs (...)`, `profiles (*)`) attaches to a
      row: the first row meeting the join condition, if any. */
  function Embedded<T>(rows: seq<T>, joins: T -> bool): (r: Option<T>)
    ensures r.Some? ==> r.value in rows && joins(r.value)
    ensures r.None? ==> forall i :: 0 <= i < |rows| ==> !joins(rows[i])
  {
    if rows == [] then None
    else if joins(rows[0]) then Some(rows[0])
    else
      var r := Embedded(rows[1..], joins);
      assert forall i :: 0 < i < |rows| ==> rows[i] == rows[1..][i - 1];
      r
  }

  /** PostgREST's error code for a `.single()` request that did not match
      exactly one row. */
  const NoRowsCode := "PGRST116"

  /** The `{ data, error }` pair a request resolves to; `error` holds the
      error code. */
  datatype Reply<T> = Reply(data: Option<T>, error: Option<string>)

  /** A `.single()` request over the rows its filters matched. */
  function Single<T>(rows: seq<T>, fault: Option<string>): (r: Reply<T>)
    ensures r.data.Some? <==> fault.None? && |rows| == 1
    ensures r.data.Some? ==> r.data.value == rows[0] && r.error.None?
    ensures r.data.None? ==> r.error.Some?
    ensures fault.None? && |rows| != 1 ==> r.error == Some(NoRowsCode)
    ensures fault.Some? ==> r == Reply(None, fault)
  {
    if fault.Some? then Reply(None, fault)
    else if |rows| == 1 then Reply(Some(rows[0]), None)
    else Reply(None, Some(NoRowsCode))
  }

  /** No two rows share a key: the table's primary-key constraint. */
  predicate UniqueKeys<T>(rows: seq<T>, key: T -> Id)
  {
    forall i, j :: 0 <= i < j < |rows| ==> key(rows[i]) != key(rows[j])
  }

  /** Whether some row already has key `k`. */
  predicate HasKey<T>(rows: seq<T>, key: T -> Id, k: Id)
  {
    exists i :: 0 <= i < |rows| && key(rows[i]) == k
  }

  /** A single-row insert into a table keyed by `key`: the store refuses it
      on a transport fault or a primary-key collision, and otherwise appends
      exactly that row. */
  function InsertRow<T>(rows: seq<T>, row: T, key: T -> Id, fault: Option<string>): (r: Option<seq<T>>)
    ensures r.Some? <==> fault.None? && !HasKey(rows, key, key(row))
    ensures r.Some? ==> r.value == rows + [row]
    ensures r.Some? && UniqueKeys(rows, key) ==> UniqueKeys(r.value, key)
  {
    if fault.Some? || HasKey(rows, key, key(row)) then None
    else Some(rows + [row])
  }

  function ProfileKey(p: Profile): Id { p.id }
  function MembershipKey(m: Membership): Id { m.id }
  function PostKey(p: Post): Id { p.id }

  /** The profiles whose `id` column equals `id`. */
  function ProfilesWithId(ps: seq<Profile>, id: Id): seq<Profile>
  {
    Filter(ps, (p: Profile) => p.id == id)
  }

  /** Under the primary key, a profile lookup by id matches at most one row,
      and exactly one when such a profile exists. */
  lemma {:induction false} ProfileLookupByKey(ps: seq<Profile>, id: Id)
    ensures UniqueKeys(ps, ProfileKey) && HasKey(ps, ProfileKey, id) ==> exists i :: 0 <= i < |ps| && ps[i].id == id && ProfilesWithId(ps, id) == [ps[i]]
    ensures !HasKey(ps, ProfileKey, id) ==> ProfilesWithId(ps, id) == []
  {
    if ps != [] {
      var rest := ps[1..];
      if !UniqueKeys(ps, ProfileKey) {
        ProfileLookupByKey(rest, id);
        if !HasKey(ps, ProfileKey, id) {
          forall k | 0 <= k < |rest| ensures rest[k].id != id {
            assert rest[k] == ps[k + 1];
          }
        }
        return;
      }
      assert UniqueKeys(rest, ProfileKey) by {
        forall i, j | 0 <= i < j < |rest| ensures rest[i].id != rest[j].id {
          assert rest[i] == ps[i + 1] && rest[j] == ps[j + 1];
        }
      }
      ProfileLookupByKey(rest, id);
      if ps[0].id == id {
        forall k | 0 <= k < |rest| ensures rest[k].id != id {
          assert rest[k] == ps[k + 1];
        }
        assert ProfilesWithId(ps, id) == [ps[0]];
      } else if HasKey(ps, ProfileKey, id) {
        var k :| 0 <= k < |ps| && ps[k].id == id;
        assert rest[k - 1].id == id;
        var i :| 0 <= i < |rest| && rest[i].id == id && ProfilesWithId(rest, id) == [rest[i]];
        assert ps[i + 1] == rest[i];
      } else {
        forall k | 0 <= k < |rest| ensures rest[k].id != id {
          assert rest[k] == ps[k + 1];
        }
      }
    }
  }
}

=== FILE: routes.dfy ===
/** The application's route table (src/App.js): URL path to page, matched
    the way React Router matches a `<Route path>` by default: ASCII case is
    ignored and any number of trailing slashes is accepted. */
module Routes {
  import opened Remote

  datatype Page = LoginPage | AdminDashboardPage | UserDashboardPage

  type Path = string

  const RootPath: Path := "/"
  const LoginPath: Path := "/login"
  const AdminPath: Path := "/admin-dashboard"
  const UserPath: Path := "/user-dashboard"

  /** The registered routes, in declaration order. */
  const Table: seq<(Path, Page)> := [
    (RootPath, LoginPage),
    (AdminPath, AdminDashboardPage),
    (UserPath, UserDashboardPage),
    (LoginPath, LoginPage)
  ]

  function LowerAscii(c: char): (r: char)
    ensures 'A' <= c <= 'Z' ==> r as int == c as int + 32
    ensures !('A' <= c <= 'Z') ==> r == c
  {
    if 'A' <= c <= 'Z' then (c as int + 32) as char else c
  }

  /** The path with ASCII letters lower-cased. A case-insensitive match
      against an ASCII pattern folds nothing else. */
  function Lower(s: string): (r: string)
    ensures |r| == |s|
    ensures forall i :: 0 <= i < |s| ==> r[i] == LowerAscii(s[i])
  {
    seq(|s|, i requires 0 <= i < |s| => LowerAscii(s[i]))
  }

  /** The path without its trailing slashes. */
  function TrimSlashes(s: string): (r: string)
    ensures |r| <= |s| && r == s[..|r|]
    ensures r == [] || r[|r| - 1] != '/'
    ensures forall i :: |r| <= i < |s| ==> s[i] == '/'
  {
    if s == [] then []
    else if s[|s| - 1] == '/' then TrimSlashes(s[..|s| - 1])
    else s
  }

  /** Whether the route declared as `route` renders at `path`: the path
      starts at the root and, lower-cased and without trailing slashes,
      is the route's own path. */
  predicate Matches(route: Path, path: Path)
  {
    |path| > 0 && path[0] == '/' && TrimSlashes(Lower(path)) == TrimSlashes(route)
  }

  /** The page the first route matching `path` renders, if any. */
  function Lookup(path: Path, routes: seq<(Path, Page)>): (r: Option<Page>)
    ensures r.Some? <==> exists i :: 0 <= i < |routes| && Matches(routes[i].0, path)
    ensures r.Some? ==> exists i :: 0 <= i < |routes| && Matches(routes[i].0, path) && routes[i].1 == r.value
  {
    if routes == [] then None
    else if Matches(routes[0].0, path) then Some(routes[0].1)
    else
      var r := Lookup(path, routes[1..]);
      assert forall i :: 0 < i < |routes| ==> routes[i] == routes[1..][i - 1];
      r
  }

  /** Resolves a URL path against the application's route table. */
  function Resolve(path: Path): (r: Option<Page>)
    ensures r.Some? <==> Matches(RootPath, path) || Matches(LoginPath, path)
                         || Matches(AdminPath, path) || Matches(UserPath, path)
    ensures Matches(RootPath, path) || Matches(LoginPath, path) ==> r == Some(LoginPage)
    ensures Matches(AdminPath, path) ==> r == Some(AdminDashboardPage)
    ensures Matches(UserPath, path) ==> r == Some(UserDashboardPage)
  {
    LookupTable(path);
    TrimmedRoutes();
    Lookup(path, Table)
  }

  /** Without their trailing slashes the four route paths are distinct. */
  lemma TrimmedRoutes()
    ensures TrimSlashes(RootPath) == ""
    ensures TrimSlashes(LoginPath) == LoginPath && TrimSlashes(AdminPath) == AdminPath
    ensures TrimSlashes(UserPath) == UserPath
  {
    assert RootPath[..|RootPath| - 1] == "";
  }

  /** The route table, tried in declaration order. */
  lemma LookupTable(path: Path)
    ensures Lookup(path, Table) ==
              if Matches(RootPath, path) then Some(LoginPage)
              else if Matches(AdminPath, path) then Some(AdminDashboardPage)
              else if Matches(UserPath, path) then Some(UserDashboardPage)
              else if Matches(LoginPath, path) then Some(LoginPage)
              else None
  {
    var t3 := [(LoginPath, LoginPage)];
    var t2 := [(UserPath, UserDashboardPage)] + t3;
    var t1 := [(AdminPath, AdminDashboardPage)] + t2;
    assert Table == [(RootPath, LoginPage)] + t1;
    assert t3[1..] == [];
    assert Lookup(path, t3) == if Matches(LoginPath, path) then Some(LoginPage) else None;
    assert t2[1..] == t3;
    assert Lookup(path, t2) == if Matches(UserPath, path) then Some(UserDashboardPage) else Lookup(path, t3);
    assert t1[1..] == t2;
    assert Lookup(path, t1) == if Matches(AdminPath, path) then Some(AdminDashboardPage) else Lookup(path, t2);
    assert Table[1..] == t1;
  }

  /** Each registered path renders the page App.js declares for it. */
  lemma RouteTable()
    ensures Resolve(RootPath) == Some(LoginPage)
    ensures Resolve(LoginPath) == Some(LoginPage)
    ensures Resolve(AdminPath) == Some(AdminDashboardPage)
    ensures Resolve(UserPath) == Some(UserDashboardPage)
  {
    assert Lower(RootPath) == RootPath;
    assert Lower(LoginPath) == LoginPath;
    assert Lower(AdminPath) == AdminPath;
    assert Lower(UserPath) == UserPath;
  }

  /** A route matches a path exactly when it matches the path with a
      trailing slash added. */
  lemma MatchesIgnoresTrailingSlash(route: Path, path: Path)
    requires |path| > 0 && path[0] == '/'
    ensures Matches(route, path + "/") == Matches(route, path)
  {
    var p := path + "/";
    assert Lower(p)[..|Lower(p)| - 1] == Lower(path);
  }

  /** A route matches a path exactly when it matches the lower-cased path. */
  lemma MatchesIgnoresCase(route: Path, path: Path)
    ensures Matches(route, Lower(path)) == Matches(route, path)
  {
    assert Lower(Lower(path)) == Lower(path);
  }

  /** The route table's answer depends on the path only through which
      routes match it. */
  lemma {:induction false} LookupByMatches(p: Path, q: Path, routes: seq<(Path, Page)>)
    requires forall route :: Matches(route, p) == Matches(route, q)
    ensures Lookup(p, routes) == Lookup(q, routes)
  {
    if routes != [] {
      LookupByMatches(p, q, routes[1..]);
    }
  }

  /** `/login/`, `/LOGIN` and `/Login//` render what `/login` renders. */
  lemma ResolveIgnoresCaseAndTrailingSlash(path: Path)
    requires |path| > 0 && path[0] == '/'
    ensures Resolve(path + "/") == Resolve(path)
    ensures Resolve(Lower(path)) == Resolve(path)
  {
    forall route ensures Matches(route, path + "/") == Matches(route, path) {
      MatchesIgnoresTrailingSlash(route, path);
    }
    forall route ensures Matches(route, Lower(path)) == Matches(route, path) {
      MatchesIgnoresCase(route, path);
    }
    LookupByMatches(path + "/", path, Table);
    LookupByMatches(Lower(path), path, Table);
  }
}

=== FILE: seqs.dfy ===
/** Sequence helpers the rest of the model is built from: filtering (the
    store's equality and membership filters) and a stable sort by an integer
    key (the store's `order` clause and the client-side feed sort). */
module Seqs {

  /** The elements of `xs` that satisfy `p`, in their original order. */
  function Filter<T>(xs: seq<T>, p: T -> bool): (r: seq<T>)
    ensures |r| <= |xs|
    ensures forall i :: 0 <= i < |r| ==> r[i] in xs && p(r[i])
    ensures forall i :: 0 <= i < |xs| && p(xs[i]) ==> xs[i] in r
    ensures (forall i :: 0 <= i < |xs| ==> !p(xs[i])) ==> r == []
  {
    if xs == [] then []
    else (if p(xs[0]) then [xs[0]] else []) + Filter(xs[1..], p)
  }

  /** The elements of `xs` that fail `p`, in their original order. */
  function Reject<T>(xs: seq<T>, p: T -> bool): (r: seq<T>)
    ensures forall i :: 0 <= i < |r| ==> r[i] in xs && !p(r[i])
    ensures forall i :: 0 <= i < |xs| && !p(xs[i]) ==> xs[i] in r
  {
    Filter(xs, x => !p(x))
  }

  /** Filtering by `p` and by its negation splits `xs` into two parts whose
      union, counted with multiplicity, is `xs`. */
  lemma {:induction false} FilterPartition<T>(xs: seq<T>, p: T -> bool)
    ensures multiset(Filter(xs, p)) + multiset(Reject(xs, p)) == multiset(xs)
  {
    if xs != [] {
      FilterPartition(xs[1..], p);
      assert xs == [xs[0]] + xs[1..];
    }
  }

  /** Every element of a permutation of `Filter(xs, p)` is an element of
      `xs` satisfying `p`. */
  lemma PermutedFilter<T>(r: seq<T>, xs: seq<T>, p: T -> bool)
    requires multiset(r) == multiset(Filter(xs, p))
    ensures forall i :: 0 <= i < |r| ==> r[i] in xs && p(r[i])
  {
    forall i | 0 <= i < |r| ensures r[i] in xs && p(r[i]) {
      assert r[i] in multiset(Filter(xs, p));
    }
  }

  /** Filtering distributes over appending one element. */
  lemma {:induction false} FilterAppend<T>(xs: seq<T>, x: T, p: T -> bool)
    ensures Filter(xs + [x], p) == Filter(xs, p) + (if p(x) then [x] else [])
  {
    if xs == [] {
      assert xs + [x] == [x];
    } else {
      assert (xs + [x])[0] == xs[0] && (xs + [x])[1..] == xs[1..] + [x];
      FilterAppend(xs[1..], x, p);
    }
  }

  /** Keys are non-decreasing from left to right. */
  predicate SortedBy<T>(xs: seq<T>, key: T -> int)
  {
    forall i, j :: 0 <= i < j < |xs| ==> key(xs[i]) <= key(xs[j])
  }

  /** Inserts `x` in front of the first element whose key is not smaller,
      so that `x` stays ahead of the elements it ties with. */
  function Insert<T>(x: T, xs: seq<T>, key: T -> int): (r: seq<T>)
    ensures |r| == |xs| + 1
    ensures multiset(r) == multiset(xs) + multiset{x}
    ensures SortedBy(xs, key) ==> SortedBy(r, key)
    ensures r[0] == x || (xs != [] && r[0] == xs[0])
  {
    if xs == [] || key(x) <= key(xs[0]) then [x] + xs
    else
      var rest := Insert(x, xs[1..], key);
      InsertBehindHead(x, xs, rest, key);
      [xs[0]] + rest
  }

  /** The step of `Insert` past a head with a smaller key: putting the head
      back in front of the insertion into the tail adds `x` to `xs` and
      keeps a sorted `xs` sorted. */
  lemma InsertBehindHead<T>(x: T, xs: seq<T>, rest: seq<T>, key: T -> int)
    requires xs != [] && key(xs[0]) < key(x)
    requires multiset(rest) == multiset(xs[1..]) + multiset{x}
    requires SortedBy(xs[1..], key) ==> SortedBy(rest, key)
    ensures multiset([xs[0]] + rest) == multiset(xs) + multiset{x}
    ensures SortedBy(xs, key) ==> SortedBy([xs[0]] + rest, key)
  {
    assert xs == [xs[0]] + xs[1..];
    if SortedBy(xs, key) {
      forall j | 0 <= j < |rest| ensures key(xs[0]) <= key(rest[j]) {
        assert rest[j] in multiset(xs[1..]) + multiset{x};
      }
      SortedCons(xs[0], rest, key);
    }
  }

  /** A sorted sequence stays sorted behind an element no larger than any
      of its own. */
  lemma SortedCons<T>(y: T, ys: seq<T>, key: T -> int)
    requires SortedBy(ys, key)
    requires forall j :: 0 <= j < |ys| ==> key(y) <= key(ys[j])
    ensures SortedBy([y] + ys, key)
  {
  }

  /** Stable insertion sort by `key`: the result holds the same elements,
      in non-decreasing key order. */
  function SortBy<T>(xs: seq<T>, key: T -> int): (r: seq<T>)
    ensures |r| == |xs|
    ensures multiset(r) == multiset(xs)
    ensures SortedBy(r, key)
  {
    if xs == [] then []
    else
      assert xs == [xs[0]] + xs[1..];
      Insert(xs[0], SortBy(xs[1..], key), key)
  }

  /** Every key in `xs` is at least `k`. */
  predicate AtLeast<T>(k: int, xs: seq<T>, key: T -> int)
  {
    forall i :: 0 <= i < |xs| ==> k <= key(xs[i])
  }

  /** The classic two-way merge of two sequences by key; on equal keys the
      element of `a` goes first. */
  function Merge<T>(a: seq<T>, b: seq<T>, key: T -> int): (r: seq<T>)
    ensures |r| == |a| + |b|
    ensures multiset(r) == multiset(a) + multiset(b)
    decreases |a| + |b|
  {
    if a == [] then b
    else if b == [] then a
    else if key(a[0]) <= key(b[0]) then
      assert a == [a[0]] + a[1..];
      [a[0]] + Merge(a[1..], b, key)
    else
      assert b == [b[0]] + b[1..];
      [b[0]] + Merge(a, b[1..], key)
  }

  /** Inserting an element whose key is at most every key of `a` into the
      merge of `a` and `b` is the same as merging with that element placed
      at the head of `a`. */
  lemma {:induction false} InsertIntoMerge<T>(x: T, a: seq<T>, b: seq<T>, key: T -> int)
    requires AtLeast(key(x), a, key)
    ensures Insert(x, Merge(a, b, key), key) == Merge([x] + a, b, key)
    decreases |b|
  {
    var xa := [x] + a;
    assert xa != [] && xa[0] == x && xa[1..] == a;
    if b == [] {
      assert Merge(a, b, key) == a;
      assert Merge(xa, b, key) == xa;
    } else if key(x) <= key(b[0]) {
      assert Merge(xa, b, key) == [x] + Merge(a, b, key);
      var m := Merge(a, b, key);
      assert (a != [] && m[0] == a[0]) || m[0] == b[0];
    } else {
      assert a == [] || key(b[0]) < key(a[0]);
      var m := Merge(a, b, key);
      assert m == [b[0]] + Merge(a, b[1..], key);
      assert m[0] == b[0] && m[1..] == Merge(a, b[1..], key);
      assert Insert(x, m, key) == [b[0]] + Insert(x, Merge(a, b[1..], key), key);
      InsertIntoMerge(x, a, b[1..], key);
      assert Merge(xa, b, key) == [b[0]] + Merge(xa, b[1..], key);
    }
  }

  /** Sorting the concatenation of two sorted sequences is their stable
      merge: an element of `a` precedes every element of `b` it ties with. */
  lemma {:induction false} SortConcatIsMerge<T>(a: seq<T>, b: seq<T>, key: T -> int)
    requires SortedBy(a, key) && SortedBy(b, key)
    ensures SortBy(a + b, key) == Merge(a, b, key)
    decreases |a|
  {
    if a == [] {
      assert a + b == b;
      SortedIsFixed(b, key);
    } else {
      assert (a + b)[0] == a[0] && (a + b)[1..] == a[1..] + b;
      assert SortedBy(a[1..], key);
      SortConcatIsMerge(a[1..], b, key);
      assert a == [a[0]] + a[1..];
      InsertIntoMerge(a[0], a[1..], b, key);
    }
  }

  /** A sequence that is already sorted is left exactly as it is. */
  lemma {:induction false} SortedIsFixed<T>(xs: seq<T>, key: T -> int)
    requires SortedBy(xs, key)
    ensures SortBy(xs, key) == xs
  {
    if xs != [] {
      assert SortedBy(xs[1..], key);
      SortedIsFixed(xs[1..], key);
    }
  }
}

=== FILE: user_dashboard.dfy ===
/** The member dashboard (src/pages/UserDashboard.js, the live component):
    the user's memberships give the club ids that scope the events and
    announcements fetched, and the two lists are merged into one feed,
    newest first. */
module UserDashboard {
  import opened Remote
  import opened Seqs
  import opened Routes

  /** The source list a feed item came from. */
  datatype Kind = EventKind | AnnouncementKind

  function KindName(k: Kind): string
  {
    match k
    case EventKind => "event"
    case AnnouncementKind => "announcement"
  }

  /** `{ ...item, type: kind }`: the row's columns with `type` set. */
  function Tag(p: Post, k: Kind): (r: Post)
    ensures r.id == p.id && r.createdAt == p.createdAt
    ensures r.columns.Keys == p.columns.Keys + {"type"}
    ensures r.columns["type"] == Str(KindName(k))
    ensures forall f :: f in p.columns && f != "type" ==> r.columns[f] == p.columns[f]
  {
    p.(columns := p.columns["type" := Str(KindName(k))])
  }

  function TagAll(ps: seq<Post>, k: Kind): (r: seq<Post>)
    ensures |r| == |ps|
    ensures forall i :: 0 <= i < |ps| ==> r[i] == Tag(ps[i], k)
  {
    seq(|ps|, i requires 0 <= i < |ps| => Tag(ps[i], k))
  }

  /** Tagging keeps every row's creation time, so it keeps the order. */
  lemma TagAllKeepsOrder(ps: seq<Post>, k: Kind)
    requires SortedBy(ps, NewestFirst)
    ensures SortedBy(TagAll(ps, k), NewestFirst)
  {
  }

  /** `feedItems`: tagged events followed by tagged announcements, sorted by
      `created_at` descending with a stable sort. */
  function Feed(events: seq<Post>, announcements: seq<Post>): (r: seq<Post>)
    ensures |r| == |events| + |announcements|
    ensures multiset(r) == multiset(TagAll(events, EventKind)) + multiset(TagAll(announcements, AnnouncementKind))
    ensures forall i, j :: 0 <= i < j < |r| ==> r[i].createdAt >= r[j].createdAt
  {
    SortBy(TagAll(events, EventKind) + TagAll(announcements, AnnouncementKind), NewestFirst)
  }

  /** Every feed item is one of the fetched rows, unchanged but for its
      `type` tag, which names the list it came from. */
  lemma FeedItemsAreTaggedRows(events: seq<Post>, announcements: seq<Post>, i: int)
    requires 0 <= i < |Feed(events, announcements)|
    ensures var item := Feed(events, announcements)[i];
            (exists e :: e in events && item == Tag(e, EventKind))
            || (exists a :: a in announcements && item == Tag(a, AnnouncementKind))
  {
    var r := Feed(events, announcements);
    var te := TagAll(events, EventKind);
    var ta := TagAll(announcements, AnnouncementKind);
    assert r[i] in multiset(te + ta);
    if r[i] in te {
      var j :| 0 <= j < |te| && te[j] == r[i];
      assert events[j] in events;
    } else {
      var j :| 0 <= j < |ta| && ta[j] == r[i];
      assert announcements[j] in announcements;
    }
  }

  /** When both lists arrive newest first (as the store orders them), the
      feed is exactly their two-way merge, an event ahead of an
      announcement with the same timestamp. */
  lemma FeedIsMerge(events: seq<Post>, announcements: seq<Post>)
    requires SortedBy(events, NewestFirst) && SortedBy(announcements, NewestFirst)
    ensures Feed(events, announcements)
            == Merge(TagAll(events, EventKind), TagAll(announcements, AnnouncementKind), NewestFirst)
  {
    TagAllKeepsOrder(events, EventKind);
    TagAllKeepsOrder(announcements, AnnouncementKind);
    SortConcatIsMerge(TagAll(events, EventKind), TagAll(announcements, AnnouncementKind), NewestFirst);
  }

  /** Whether a row's `club_id` is one of `clubIds`. */
  predicate InClubs(p: Post, clubIds: seq<Id>)
  {
    "club_id" in p.columns && p.columns["club_id"].Str? && p.columns["club_id"].s in clubIds
  }

  /** The `club_id` of each membership, in order. */
  function ClubIds(ms: seq<Membership>): (r: seq<Id>)
    ensures |r| == |ms|
    ensures forall i :: 0 <= i < |ms| ==> r[i] == ms[i].clubId
  {
    seq(|ms|, i requires 0 <= i < |ms| => ms[i].clubId)
  }

  /** A scoped `.in("club_id", clubIds).order("created_at", desc)` fetch. */
  function FetchScoped(rows: seq<Post>, clubIds: seq<Id>): (r: seq<Post>)
    ensures multiset(r) == multiset(Filter(rows, (p: Post) => InClubs(p, clubIds)))
    ensures forall i :: 0 <= i < |r| ==> r[i] in rows && InClubs(r[i], clubIds)
    ensures SortedBy(r, NewestFirst)
  {
    var matched := Filter(rows, (p: Post) => InClubs(p, clubIds));
    var r := SortBy(matched, NewestFirst);
    PermutedFilter(r, rows, (p: Post) => InClubs(p, clubIds));
    r
  }

  /** The state `useUserData` holds. */
  datatype UserData = UserData(clubs: seq<Club>, events: seq<Post>, announcements: seq<Post>, loading: bool)

  const InitialUserData := UserData([], [], [], true)

  /** Which of the four requests fail. The code reads only `data` from
      each reply, so a failed request behaves as an empty result. */
  datatype FetchFaults = FetchFaults(memberships: bool, clubs: bool, events: bool, announcements: bool)

  /** `useUserData`'s effect, run on `prev`, the state the hook holds (it
      re-runs whenever the auth hook hands out a new user object). With no
      user nothing happens. Otherwise the memberships are read; only when
      there are some are clubs, events and announcements of those clubs
      written, and loading ends either way. */
  function FetchUserData(prev: UserData, s: Store, user: Option<AuthUser>, f: FetchFaults): (r: UserData)
    ensures user.None? ==> r == prev
    ensures user.Some? ==> !r.loading
    ensures user.Some? ==>
      var mine := if f.memberships then [] else Filter(s.memberships, (m: Membership) => m.userId == user.value.id);
      && (mine == [] ==> r == prev.(loading := false))
      && (mine != [] && !f.clubs ==> r.clubs == Filter(s.clubs, (c: Club) => c.id in ClubIds(mine)))
      && (mine != [] && !f.events ==> r.events == FetchScoped(s.events, ClubIds(mine)))
      && (mine != [] && !f.announcements ==> r.announcements == FetchScoped(s.announcements, ClubIds(mine)))
      && (mine != [] && f.clubs ==> r.clubs == [])
      && (mine != [] && f.events ==> r.events == [])
      && (mine != [] && f.announcements ==> r.announcements == [])
      && (mine != [] ==> forall i :: 0 <= i < |r.events| ==>
            r.events[i] in s.events && InClubs(r.events[i], ClubIds(mine)))
      && (mine != [] ==> forall i :: 0 <= i < |r.announcements| ==>
            r.announcements[i] in s.announcements && InClubs(r.announcements[i], ClubIds(mine)))
      && (mine != [] ==> forall i :: 0 <= i < |r.clubs| ==> r.clubs[i] in s.clubs && r.clubs[i].id in ClubIds(mine))
  {
    match user
    case None => prev
    case Some(u) =>
      var mine := if f.memberships then [] else Filter(s.memberships, (m: Membership) => m.userId == u.id);
      if mine == [] then prev.(loading := false)
      else
        UserData(if f.clubs then [] else Filter(s.clubs, (c: Club) => c.id in ClubIds(mine)),
                 if f.events then [] else FetchScoped(s.events, ClubIds(mine)),
                 if f.announcements then [] else FetchScoped(s.announcements, ClubIds(mine)),
                 false)
  }

  /** On the first load, a user with no memberships sees an empty feed and
      nothing loading. */
  lemma NoMembershipsEmptyFeed(s: Store, user: AuthUser, f: FetchFaults)
    requires forall m :: m in s.memberships ==> m.userId != user.id
    ensures var d := FetchUserData(InitialUserData, s, Some(user), f);
            d.clubs == [] && Feed(d.events, d.announcements) == [] && !d.loading
  {
    assert forall i :: 0 <= i < |s.memberships| ==> s.memberships[i] in s.memberships;
  }

  /** A failed announcements request does not disturb the events. */
  lemma AnnouncementFailureIsolated(prev: UserData, s: Store, user: AuthUser, f: FetchFaults)
    ensures FetchUserData(prev, s, Some(user), f.(announcements := true)).events
            == FetchUserData(prev, s, Some(user), f).events
  {
  }

  /** Once auth loading is over with no user, the dashboard goes to the
      login page. */
  function NoUserRedirect(authLoading: bool, user: Option<AuthUser>): (r: Option<Path>)
    ensures r.Some? <==> !authLoading && user.None?
    ensures r.Some? ==> Resolve(r.value) == Some(LoginPage)
  {
    RouteTable();
    if !authLoading && user.None? then Some(LoginPath) else None
  }
}

=== FILE: user_profile.dfy ===
/** The profile page (src/components/UserProfile.js): the session gate, the
    user's memberships flattened with their club's columns, and the avatar
    initial. */
module UserProfile {
  import opened Remote
  import opened Seqs
  import opened Routes

  /** The message shown when the membership request fails. */
  const LoadError := "Failed to load your clubs. Please try again."

  /** The columns the page selects from the embedded club row, as an object;
      a missing club spreads nothing. */
  function ClubColumns(c: Option<Club>): (r: Obj)
    ensures c.None? ==> r == map[]
    ensures c.Some? ==> r.Keys == {"id", "name", "description", "logo_url", "admin_user_id"}
    ensures c.Some? ==> && r["id"] == Str(c.value.id) && r["name"] == OptStr(c.value.name)
                        && r["description"] == OptStr(c.value.description)
                        && r["logo_url"] == OptStr(c.value.logoUrl)
                        && r["admin_user_id"] == Str(c.value.adminUserId)
  {
    match c
    case None => map[]
    case Some(club) =>
      map["id" := Str(club.id), "name" := OptStr(club.name), "description" := OptStr(club.description),
          "logo_url" := OptStr(club.logoUrl), "admin_user_id" := Str(club.adminUserId)]
  }

  function OptStr(o: Option<string>): Value
  {
    match o
    case None => Null
    case Some(v) => Str(v)
  }

  /** The club a membership row embeds through its `club_id` key. */
  function ClubOf(clubs: seq<Club>, id: Id): (r: Option<Club>)
    ensures r.Some? ==> r.value in clubs && r.value.id == id
    ensures r.None? ==> forall c :: c in clubs ==> c.id != id
  {
    var r := Embedded(clubs, (c: Club) => c.id == id);
    assert r.None? ==> forall c :: c in clubs ==> c.id != id by {
      if r.None? {
        forall c | c in clubs ensures c.id != id {
          var k :| 0 <= k < |clubs| && clubs[k] == c;
        }
      }
    }
    r
  }

  /** `{ membership_id: m.id, role: m.role, joined_at: m.joined_at, ...m.clubs }`. */
  function Flatten(m: Membership, club: Option<Club>): (r: Obj)
    ensures r.Keys == {"membership_id", "role", "joined_at"} + ClubColumns(club).Keys
    ensures r["membership_id"] == Str(m.id)
    ensures r["role"] == OptStr(m.role)
    ensures r["joined_at"] == Str(m.joinedAt)
    ensures forall k :: k in ClubColumns(club) ==> r[k] == ClubColumns(club)[k]
  {
    map["membership_id" := Str(m.id), "role" := OptStr(m.role), "joined_at" := Str(m.joinedAt)]
      + ClubColumns(club)
  }

  /** Every membership flattened with its club, one entry each, in order. */
  function FlattenAll(ms: seq<Membership>, clubs: seq<Club>): (r: seq<Obj>)
    ensures |r| == |ms|
    ensures forall i :: 0 <= i < |ms| ==> r[i] == Flatten(ms[i], ClubOf(clubs, ms[i].clubId))
  {
    seq(|ms|, i requires 0 <= i < |ms| => Flatten(ms[i], ClubOf(clubs, ms[i].clubId)))
  }

  /** The page's state. */
  datatype View = View(user: Option<AuthUser>, clubs: seq<Obj>, loading: bool, error: string,
                       navigate: Option<Path>)

  const InitialView := View(None, [], true, "", None)

  /** `fetchUserAndData`: without a session (or on a session error) go to
      the login page and request nothing; otherwise load the user's
      memberships with their clubs. */
  function Load(session: Option<Session>, sessionError: bool, s: Store, membershipsFault: bool): (r: View)
    ensures sessionError || session.None? ==> r == InitialView.(navigate := Some(LoginPath))
    ensures r.navigate.Some? ==> Resolve(r.navigate.value) == Some(LoginPage)
    ensures !sessionError && session.Some? ==>
      var mine := Filter(s.memberships, (m: Membership) => m.userId == session.value.user.id);
      && r.user == Some(session.value.user) && !r.loading && r.navigate.None?
      && (membershipsFault ==> r.clubs == InitialView.clubs && r.error == LoadError)
      && (!membershipsFault ==> r.error == "" && |r.clubs| == |mine|)
      && (!membershipsFault ==> forall i :: 0 <= i < |mine| ==>
            r.clubs[i] == Flatten(mine[i], ClubOf(s.clubs, mine[i].clubId)))
  {
    RouteTable();
    if sessionError || session.None? then InitialView.(navigate := Some(LoginPath))
    else
      var u := session.value.user;
      var signedIn := InitialView.(user := Some(u));
      if membershipsFault then signedIn.(error := LoadError, loading := false)
      else
        var mine := Filter(s.memberships, (m: Membership) => m.userId == u.id);
        if mine == [] then signedIn.(clubs := [], loading := false)
        else signedIn.(clubs := FlattenAll(mine, s.clubs), loading := false)
  }

  /** The avatar letter: `U` for a missing or empty email, otherwise the
      email's first character upper-cased. */
  function GetInitial(email: Option<string>): (r: string)
    ensures |r| == 1
    ensures email.None? || email.value == "" ==> r == "U"
    ensures email.Some? && email.value != "" ==> r[0] == UpperAscii(email.value[0])
  {
    if email.None? || email.value == "" then "U" else [UpperAscii(email.value[0])]
  }

  /** ASCII upper-casing, the part of `toUpperCase` the model covers. */
  function UpperAscii(c: char): (r: char)
    ensures 'a' <= c <= 'z' ==> r as int == c as int - 32
    ensures !('a' <= c <= 'z') ==> r == c
  {
    if 'a' <= c <= 'z' then (c as int - 32) as char else c
  }

  /** The initial is never a lower-case ASCII letter, and it is the first
      character of the email up to case. */
  lemma InitialIsUpperCase(email: Option<string>)
    ensures var r := GetInitial(email);
            !('a' <= r[0] <= 'z')
            && (email.Some? && email.value != "" ==> UpperAscii(r[0]) == UpperAscii(email.value[0]))
  {
  }
}
